=== FILE: README.md ===
# taiga-email-tickets, modelled in Dafny

`import_tickets.py` turns the unread mail of an IMAP mailbox into issues of a
Taiga project. It runs in two passes:

- `collect_emails` decodes every unseen message into a post. A post holds the
  To/From/Subject/Date/Message-ID headers, the plain-text and html bodies and
  the attachments.
- `create_tickets` takes each post's recipient address and turns its local part
  into a project slug. `create_ticket` then finds that project and creates a
  "High / New / Bug / Minor" issue. It uploads the original message and every
  attachment from a scratch directory named after the Message-ID, removes the
  directory, and marks the message seen only when every upload went through.

The model has one module per concern, one file each:

| module | file | what it covers |
|---|---|---|
| `Wrappers` | wrappers.dfy | `Option` and `Result`, with `:-` propagation |
| `Sequences` | sequences.dfy | first and last index searches (`str.index`, last match of a loop) |
| `Slugs` | slugs.dfy | `camel_case_to_slug` |
| `Routing` | routing.dfy | recipient address → project slug, in `create_tickets` |
| `Mime` | mime.dfy | `decode_email` and the per-message body of `collect_emails` |
| `Tickets` | tickets.dfy | project resolution and issue composition in `create_ticket` |
| `Committer` | committer.dfy | the issue, scratch directory, upload and seen-flag effects of `create_ticket` |
| `Pipeline` | pipeline.dfy | the two batch loops and the exceptions that end them |

Notes on each module:

- **Slugs.** The regular expression `(?!^)([A-Z]+)` → `-\1` is modelled twice:
  - literally, as a scanner that takes greedy runs of capitals at any index but 0;
  - as an independent position rule.

  The two are proved equal. Lowercasing is ASCII.
- **Mime.** The email library is not modelled. A message arrives as:
  - its header fields, each with the segments `decode_header` returns and whether `.decode(charset)` raised;
  - its parts in `walk()` order, each with whether its payload decoded.

  The loop variable `body` is a local of `collect_emails`, so it keeps its value
  from one message to the next. A text or html part whose payload does not decode
  takes the last value `body` held, even one from an earlier message. The model
  follows the code here (`Mime.Walk`'s `carried` argument, `Pipeline.CarriedInto`).
  NameError arises only when no payload has decoded yet in the whole run.
- **Committer.** The effects of `create_ticket` are an event trace:
  - issue created
  - directory created
  - each upload
  - directory removed
  - message marked seen

  A small state machine replays the trace. It remembers which scratch directory is
  open, so a removal is legal only for that directory. Its answers say which orders
  are legal.
- **Exceptions.** An exception that nothing catches ends the loop it escapes from:
  - a malformed recipient address;
  - a missing enumeration name;
  - an upload error other than `TaigaRestException`.

  The model returns such an exception as an explicit abort.
- **Pipeline.** The loop of `create_tickets` is stated for any function with the
  signature of `create_ticket` (`Pipeline.Ticketing`), so its lemmas depend only
  on whether a run raises. `Pipeline.TicketsFor` instantiates it with
  `Committer.CreateTicket` against one tracking service.

## Model

| member | source | states |
|---|---|---|
| `Slugs.ToLower` | import_tickets.py:38 | `.lower()` on ASCII: a capital becomes its own lowercase letter, 32 code points later; every other character is unchanged; the result is never a capital |
| `Slugs.UpperRun` | import_tickets.py:38 | `[A-Z]+` is greedy: the run ends inside the name, the character after it is not a capital, and it has at least one character when a capital starts it |
| `Slugs.UpperRunCapitals` | import_tickets.py:38 | every character inside the run `[A-Z]+` matches is a capital |
| `Slugs.CamelCaseToSlug` | import_tickets.py:37-39 | the slug has no capitals and starts with the lowercased first character of the name |
| `Slugs.SubstituteIsHyphenate` | import_tickets.py:38 | characterises `Slugs.Substitute`, the literal scan of `re.sub`: from every index the scanner can stand at it equals the independent position rule `Slugs.Hyphenate` |
| `Slugs.SlugIsPositionRule` | import_tickets.py:38 | the slug is the name with a hyphen before each capital at index ≥ 1 that starts a run (or sits at index 1), then lowercased |
| `Slugs.SlugLength` | import_tickets.py:38 | the slug is exactly one character longer than the name per inserted hyphen |
| `Slugs.SlugWithoutInnerCapitals` | import_tickets.py:38 | a name with no capital after index 0 is only lowercased |
| `Slugs.SlugFixesLowercase` | import_tickets.py:37-39 | a name without capitals is its own slug |
| `Slugs.SlugIdempotent` | import_tickets.py:37-39 | slugifying a slug changes nothing |
| `Slugs.SlugExampleCamelCase` | import_tickets.py:38 | `MyProjectName` becomes `my-project-name` |
| `Slugs.SlugExampleLeadingCapitals` | import_tickets.py:38 | `ABc` becomes `a-bc`: a leading run is split after its first character only |
| `Slugs.SlugExampleLowercase` | import_tickets.py:38 | `abc` is unchanged |
| `Sequences.IndexOf` | import_tickets.py:129-131 | the first occurrence of a character; None exactly when it is absent (where `str.index` raises) |
| `Routing.BareAddress` | import_tickets.py:128-130 | a header without `<` is kept whole; the only failure is an unclosed bracket, and only when there is a `<`; an extracted address is shorter than the header and holds no `>` |
| `Routing.LocalPart` | import_tickets.py:131 | fails, with the missing-`@` error, exactly when the address has no `@`; otherwise yields the prefix up to the first `@`, which holds no `@` |
| `Routing.RecipientSlug` | import_tickets.py:127-131 | an absent `To` header fails; any slug produced has no capitals |
| `Routing.RecipientSlugOfPresent` | import_tickets.py:127-131 | for a present header: an unclosed bracket fails as such; otherwise routing fails for a missing `@` exactly when the bare address has none, and else yields the slug of the address up to its first `@` |
| `Routing.BareAddressOfPlain` | import_tickets.py:128 | a header without `<` is used whole |
| `Routing.BareAddressOfBracketed` | import_tickets.py:128-130 | `display<address>rest` yields exactly `address` |
| `Routing.BareAddressFails` | import_tickets.py:128-130 | extraction fails, with an unclosed-bracket error, exactly when no `>` follows the first `<` |
| `Routing.LocalPartOf` | import_tickets.py:131 | `local@domain` yields `local` |
| `Routing.RouteBracketed` | import_tickets.py:127-131 | `display <local@domain>rest` routes to the slug of `local` |
| `Routing.RouteBare` | import_tickets.py:127-131 | a bare `local@domain` routes to the slug of `local` |
| `Routing.RouteExample` | import_tickets.py:127-131 | `Support Desk <support@example.com>` routes to `support` |
| `Mime.DecodeHeader` | import_tickets.py:136-145 | an absent header and an empty header are each None; a non-empty header fails exactly when its first segment does not decode and otherwise is that segment's text; any text returned comes from a present header's first segment |
| `Mime.HeaderKeepsFirstSegmentOnly` | import_tickets.py:139 | segments after the first never change the decoded header, even undecodable ones |
| `Mime.Classify` | import_tickets.py:188-192 | the `if`/`elif` chain, each branch as an if-and-only-if: text exactly when `text/plain` without `attachment` in the disposition; html exactly when `text/html`; attachment exactly when neither of those and the part has a filename |
| `Mime.Step` | import_tickets.py:181-196 | one pass of the part loop: fails with NameError exactly when a text or html part is reached with an undecodable payload and `body` unbound; `body` becomes the payload when it decodes and is kept otherwise; the text or html slot takes `body`; an attachment part appends exactly its attachment and no other part changes the list |
| `Mime.Walk` | import_tickets.py:180-196 | the part loop can only fail with NameError, and only when `body` entered unbound; a bound `body` stays bound |
| `Mime.AttachmentPositions` | import_tickets.py:192-196 | the attachment positions are increasing and are exactly the parts classified as attachments |
| `Mime.WalkSucceeds` | import_tickets.py:184-191 | the loop succeeds exactly when every text and html part is reached with `body` bound, and leaves `body` at the last decoded payload |
| `Mime.WalkText` | import_tickets.py:188-189 | `text` is the body seen by the last plain-text part, or "" without one |
| `Mime.WalkHtml` | import_tickets.py:190-191 | `html` is the body seen by the last html part, or "" without one |
| `Mime.WalkAttachments` | import_tickets.py:192-196 | the attachments are exactly the attachment parts in walk order, with filename and raw payload |
| `Mime.WalkMeetsReference` | import_tickets.py:180-196 | the part loop against its reference definition: success condition, text, html and attachments |
| `Mime.MultipartExample` | import_tickets.py:177-196 | container, text, html and binary attachment decode to the expected post fields, attachment bytes intact |
| `Mime.BodyReuseExample` | import_tickets.py:184-189 | an undecodable plain-text part takes the body of the part before it |
| `Mime.BodyUnboundExample` | import_tickets.py:184-189 | a plain-text part reached before any payload decoded makes the message fail with NameError |
| `Mime.BodyCarried` | import_tickets.py:184-189 | an undecodable plain-text part takes whatever `body` held on entry |
| `Mime.FlatBody` | import_tickets.py:197-205 | a single-part message fails exactly when its payload does not decode; it has no attachments and binds `body` to its payload |
| `Mime.DecodeMessage` | import_tickets.py:165-205 | an undecodable `To` header is the error exactly when that header fails, and the From, Subject, Date and Message-ID failures follow in source order; a decoded post keeps the mailbox id, the original message and all four decoded headers; a single-part message succeeds exactly when its payload decodes; a multipart message succeeds exactly when the part loop does and takes its text, html, attachments and `body` |
| `Mime.MultipartMessageMeetsReference` | import_tickets.py:165-196 | a multipart message against the reference definition: it decodes exactly when its headers do and every text or html part is reached with `body` bound; its text, html and attachments are those the reference names |
| `Mime.MessageIdFallback` | import_tickets.py:171-175 | a present non-empty Message-ID is kept, otherwise the fresh uuid is used, so the id is never empty |
| `Mime.FlatMessageBody` | import_tickets.py:197-205 | a single-part message puts its decoded payload in text or html by content type and has no attachments |
| `Tickets.Fallback` | import_tickets.py:62-65 | without a matching entry `project` keeps its value; any change comes from an entry whose slugified name matches |
| `Tickets.ResolveProject` | import_tickets.py:57-68 | a direct hit by slug wins |
| `Tickets.FallbackTakesLastMatch` | import_tickets.py:62-65 | the listing loop ends with the last entry whose slugified name matches, or what it started with |
| `Tickets.ResolveTakesLastMatch` | import_tickets.py:57-68 | without a direct hit, resolution fails exactly when no listed name slugifies to the target, and otherwise picks the last one that does |
| `Tickets.Description` | import_tickets.py:74 | the description starts with `From: ` and ends with the text body |
| `Tickets.DescriptionRoundTrip` | import_tickets.py:74 | sender, date and full text body can be parsed back out of the description when the headers hold no newline |
| `Tickets.ComposeIssue` | import_tickets.py:89-97 | composition succeeds exactly when all four fixed names exist; otherwise it names the first missing one in argument order (priority, status, type, severity), each as an if-and-only-if; the issue has the subject as title, the fixed High/New/Bug/Minor, the assignee and the description |
| `Committer.StagedFiles` | import_tickets.py:103-108 | `message.eml` is staged first, then every attachment in order with description "Attachment" |
| `Committer.UploadFrom` | import_tickets.py:103-114 | the uploads made are of the files in order and each went through; all files uploaded exactly when none failed; a caught rejection exactly when the first file that did not go through was writable and rejected |
| `Committer.StopIndex` | import_tickets.py:103-109 | the stop index is the first upload that does not go through |
| `Committer.UploadFromMeetsStop` | import_tickets.py:103-114 | exactly the files before the first failing one are uploaded, in order; success exactly when none fails; a caught rejection exactly when the failing file was writable and rejected |
| `Committer.NotFoundHasNoEffect` | import_tickets.py:61-68 | an unknown project produces no effect at all |
| `Committer.CreateTicketOutcome` | import_tickets.py:55-119 | characterises `Committer.CreateTicket`'s outcome: project not found exactly when resolution fails; a missing enumeration exactly when the project resolves and the issue cannot be composed, naming the one composition reports; once the issue exists, committed exactly when every upload goes through, a caught `TaigaRestException` exactly when the first failing file was written and rejected, and an escaping error exactly when that file could not be written or the service raised anything else |
| `Committer.CreateTicketEvents` | import_tickets.py:88-119 | characterises `Committer.CreateTicket`'s effects: any effect at all starts with the composed issue and then the scratch directory; a commit ends with the directory named after the Message-ID removed and then the message marked seen; a caught or escaping upload error ends with that directory removed |
| `Committer.ReplayStaged` | import_tickets.py:99-117 | issue, directory, the uploads up to a stop and the cleanup form a legal trace, the removal naming the directory that was created, that leaves those uploads, no directory and the message unseen |
| `Committer.CreateTicketTrace` | import_tickets.py:99-119 | every run is a legal trace, so the directory removed is the one created; the scratch directory is always gone at the end; nothing happens when the project or an enumeration is missing; the uploads are the staged files up to the first failure; the message is seen exactly when every upload went through |
| `Committer.SeenExactlyWhenCommitted` | import_tickets.py:119 | the message, and only it, is marked seen exactly when the run committed |
| `Committer.SingleFileCommit` | import_tickets.py:88-119 | a message without attachments whose upload is accepted yields issue, directory, `message.eml` upload, cleanup and seen flag, in that order |
| `Pipeline.CollectAsWritten` | import_tickets.py:147-215 | the loop as written fails, reporting a message index, only at a message whose `To` header is undecodable and at the first such one; otherwise it delivers no more posts than messages |
| `Pipeline.Collect` | import_tickets.py:147-215 | the corrected loop delivers no more posts than messages; `Pipeline.CollectInOrder` fixes which posts and their order |
| `Pipeline.CollectAsWrittenCrashes` | import_tickets.py:208-210 | the loop as written returns anything only when no `To` header is undecodable, and then returns what the corrected loop returns |
| `Pipeline.CollectCounterexample` | import_tickets.py:165-211 | one undecodable `To` header loses a good message after it, which the corrected loop keeps |
| `Pipeline.CollectKeepsDecodable` | import_tickets.py:156-212 | every message that decodes, with `body` as the earlier messages left it, is delivered |
| `Pipeline.CollectOnlyDecoded` | import_tickets.py:156-212 | every delivered post is the decoding of one of the messages |
| `Pipeline.DecodablePositions` | import_tickets.py:156-212 | the reference for the loop's output: exactly the indices of the messages that decode, each once, in increasing order |
| `Pipeline.CollectInOrder` | import_tickets.py:156-212 | the intended loop delivers the decodings of exactly the decodable messages, in fetch order and once each, as `messages.append` at line 207 does |
| `Pipeline.CollectCarriesBody` | import_tickets.py:184-187 | a multipart message whose text part fails to decode gets the previous message's body as its text; the two posts come in fetch order |
| `Pipeline.CreateTicketsFrom` | import_tickets.py:122-133 | the loop of `create_tickets`, for any `create_ticket`: no more runs than posts; an abort names a post of the batch; without an abort every post was routable; a run that raises is the last run, and the batch is aborted at its post |
| `Pipeline.CreateTicketsStopsAtFirstRaise` | import_tickets.py:126-133 | without an abort every post has its run; with one, the runs end at the raising post; a run raises exactly when it is the last run and the batch was aborted at its post |
| `Pipeline.CreateTicketsInOrder` | import_tickets.py:126-133 | the runs follow the posts in order, each being `create_ticket` on its post with the slug routed from its `To` header |
| `Pipeline.FollowsAt` | import_tickets.py:126-133 | runs that follow an expectation from index `i` have run `j` as the expected run at `i + j` |
| `Pipeline.RunsFollowAt` | import_tickets.py:126-133 | in runs that follow the posts, run `j` is the run for post `j` |
| `Pipeline.TicketRaisesExactly` | import_tickets.py:55-119 | a run of `create_ticket` raises exactly when the project exists and either an enumeration is missing or the upload loop stops on an unwritable file or an error other than `TaigaRestException` |
| `Pipeline.TicketEndsBatchExactly` | import_tickets.py:55-133 | message `j` of a batch ends `create_tickets` with its own exception exactly when its project exists and either an enumeration is missing or the upload loop stops on an unwritable file or an error other than `TaigaRestException` |
| `Pipeline.RejectedRunContinues` | import_tickets.py:108-133 | a run that ends with a caught rejection never ends the batch: any abort belongs to a later message |
| `Pipeline.RunAt` | import_tickets.py:126-133 | run `j` of a batch is `create_ticket` on post `j`, whose `To` header routed |
| `Pipeline.SeenInBatch` | import_tickets.py:119-133 | within a batch a message is marked seen exactly when its own run committed |
| `Pipeline.Run` | import_tickets.py:218-219 | the script with the corrected `collect_emails`: it attempts no more tickets than messages were fetched |
| `Pipeline.RunAsWritten` | import_tickets.py:207-219 | the script as written, with the handler at lines 208-210: it ends with the handler's KeyError exactly when some `To` header is undecodable, reporting such a message, and otherwise does what `Pipeline.Run` does |
| `Pipeline.SingleMessageCommits` | import_tickets.py:122-133 | a routable message without attachments to a project with the four names commits with the expected trace and no abort |
| `Pipeline.SupportScenario` | import_tickets.py:127-133 | a message without attachments to `Support Desk <support@example.com>` is routed to the slug `support`, and with project `support` offering the four names and the upload accepted, the batch is exactly one committed run with the full trace and no abort |

## Left out

- The IMAP session (login, `select`, `search`, `fetch`, `store`) is left out because it is I/O. The fetched messages are the input. Marking a message seen is the `MarkedSeen` event.
- The email library is left out: `message_from_bytes`, `decode_header`, charset decoding and `get_payload`. Their outcomes are part of the input. A parse failure in `message_from_bytes` is not modelled.
- The Taiga client is left out: authentication, `get_by_slug`, `list`, `add_issue` and `attach`. Its answers are parameters of `Pipeline.Service`. Only `get_by_slug` at line 58 and `attach` may fail in the model; the rest are assumed never to raise:
  - `api.projects.list()` (line 62) and the second `get_by_slug(p.slug)` inside the listing loop (line 65), taken to return the listed project;
  - `project.add_issue` (line 89) itself, once the four enumeration lookups succeed.

  A raise in any of these would escape `create_ticket` and end `create_tickets`, like a missing enumeration does; the model has no such abort.
- Pipeline.Run: models the script with `collect_emails` corrected as under Findings, so an undecodable `To` header skips one message. `Pipeline.RunAsWritten` is the script as written, and its contract relates the two.
- The filesystem is left out. `os.makedirs` raising on an existing directory, such as for a repeated Message-ID, is not modelled; the directory is assumed new. The text-mode and binary-mode writes of `attach_file` are one "write" step, and the model lets it fail only when the attachment has no content (`writable`). Other ways `open` at lines 44 and 48 can raise are not modelled: an empty filename (the path is then the scratch directory itself), a filename containing `/`, or any other operating-system error. Such an error would escape `create_ticket` like an unwritable file does.
- `uuid.uuid4()` is not modelled. It is the `uuids` parameter, one identifier per message.
- Environment configuration is not modelled. The assignee is a parameter.
- The console output is not modelled: `print` and `traceback`.
- Python's `.lower()` on non-ASCII letters is not modelled. The model lowercases ASCII only. The pattern `[A-Z]` is ASCII, so the hyphenation is exact.
- `str(message['msg'])`, the serialised original message, is taken as given (`original`).
- The return values of `create_ticket` (`False` or `None`) are not modelled, because `create_tickets` ignores them. The outcome records which path was taken.

## Findings

| source | as written | input that shows it | evidently intended | confidence | as-written member | corrected member |
|---|---|---|---|---|---|---|
| import_tickets.py:208-210 | when decoding the `To` header raises, `post` has no `'to'` key, so the handler's `print(post['to'])` raises KeyError; it escapes `collect_emails` and the whole batch is lost | a `To` header whose first encoded word names an unknown charset, followed by a well-formed message | skip only the undecodable message, as for every other decoding error | not executed | `Pipeline.CollectAsWritten` (`Pipeline.CollectCounterexample`, `Pipeline.CollectAsWrittenCrashes`, `Pipeline.RunAsWritten`) | `Pipeline.Collect` (`Pipeline.CollectKeepsDecodable`, `Pipeline.CollectOnlyDecoded`, `Pipeline.CollectInOrder`) |

=== FILE: committer.dfy ===
/**
 * The second half of `create_ticket`: the issue is created, a scratch
 * directory named after the Message-ID is made, `message.eml` and then every
 * attachment is written there and uploaded, the directory is removed in a
 * `finally`, and only when every upload went through is the message marked
 * seen. Files, uploads and the mailbox flag are recorded as a trace of events
 * that a small state machine replays.
 */
module Committer {
  import opened Wrappers
  import opened Mime
  import opened Tickets
  import Slugs

  /** The service's answer to one upload. */
  datatype UploadOutcome =
    | Accepted
    | Rejected  // TaigaRestException: caught, `create_ticket` returns False
    | Raised    // any other exception: cleaned up, then propagates

  /** One file to write and upload; `writable` is false when writing its content raises (no payload). */
  datatype Staged = Staged(filename: string, description: string, writable: bool)

  /** The effects of `create_ticket`, in order. */
  datatype Event =
    | IssueCreated(issue: Issue)
    | DirCreated(dir: string)
    | Uploaded(filename: string, description: string)
    | DirRemoved(dir: string)
    | MarkedSeen(eId: string)

  /** What is staged for a post: the original message first, then every attachment in order. */
  function StagedFiles(post: Post): (files: seq<Staged>)
    ensures |files| == |post.attachments| + 1
    ensures files[0] == Staged("message.eml", "The original mail message", true)
    ensures forall k :: 0 <= k < |post.attachments| ==>
      files[k + 1] == Staged(post.attachments[k].filename, "Attachment", post.attachments[k].content.Some?)
  {
    [Staged("message.eml", "The original mail message", true)]
      + seq(|post.attachments|, k requires 0 <= k < |post.attachments| =>
          Staged(post.attachments[k].filename, "Attachment", post.attachments[k].content.Some?))
  }

  // ------------------------------------------------------------ the uploads

  /** Upload `k` goes through: its file can be written and the service accepts it. */
  predicate GoesThrough(files: seq<Staged>, answer: nat -> UploadOutcome, k: nat)
    requires k < |files|
  {
    files[k].writable && answer(k) == Accepted
  }

  /** Index of the first upload that does not go through, or `|files|` when all do. */
  function StopIndex(files: seq<Staged>, answer: nat -> UploadOutcome, k: nat): (stop: nat)
    requires k <= |files|
    ensures k <= stop <= |files|
    ensures forall j :: k <= j < stop ==> GoesThrough(files, answer, j)
    ensures stop < |files| ==> !GoesThrough(files, answer, stop)
    decreases |files| - k
  {
    if k == |files| || !GoesThrough(files, answer, k) then k else StopIndex(files, answer, k + 1)
  }

  datatype UploadResult = AllUploaded | UploadRejected | UploadRaised

  function UploadedEvent(f: Staged): Event {
    Uploaded(f.filename, f.description)
  }

  /** The `try` body: upload from index `k` on until something fails; the events of the accepted uploads. */
  function UploadFrom(files: seq<Staged>, answer: nat -> UploadOutcome, k: nat): (r: (UploadResult, seq<Event>))
    requires k <= |files|
    ensures |r.1| <= |files| - k
    ensures forall j :: k <= j < k + |r.1| ==> GoesThrough(files, answer, j)
    ensures forall j :: 0 <= j < |r.1| ==> r.1[j] == UploadedEvent(files[k + j])
    ensures r.0 == AllUploaded <==> |r.1| == |files| - k
    ensures r.0 == UploadRejected <==>
      |r.1| < |files| - k && files[k + |r.1|].writable && answer(k + |r.1|) == Rejected
    decreases |files| - k
  {
    if k == |files| then (AllUploaded, [])
    else if !files[k].writable then (UploadRaised, [])
    else match answer(k)
      case Accepted =>
        var rest := UploadFrom(files, answer, k + 1);
        var uploaded := [UploadedEvent(files[k])] + rest.1;
        assert forall j :: 1 <= j < |uploaded| ==> uploaded[j] == rest.1[j - 1];
        (rest.0, uploaded)
      case Rejected => (UploadRejected, [])
      case Raised => (UploadRaised, [])
  }

  /** The uploads that went through: those before the stop index, in order. */
  function UploadedBefore(files: seq<Staged>, k: nat, stop: nat): seq<Event>
    requires k <= stop <= |files|
  {
    seq(stop - k, j requires 0 <= j < stop - k => UploadedEvent(files[k + j]))
  }

  /**
   * The upload loop uploads, in order, exactly the files before the first one
   * that fails; it reports success exactly when there is no such file, and a
   * caught rejection exactly when that file was writable and rejected.
   */
  lemma {:induction false} UploadFromMeetsStop(files: seq<Staged>, answer: nat -> UploadOutcome, k: nat)
    requires k <= |files|
    ensures var stop := StopIndex(files, answer, k);
      && UploadFrom(files, answer, k).1 == UploadedBefore(files, k, stop)
      && (UploadFrom(files, answer, k).0 == AllUploaded <==> stop == |files|)
      && (UploadFrom(files, answer, k).0 == UploadRejected <==>
            stop < |files| && files[stop].writable && answer(stop) == Rejected)
    decreases |files| - k
  {
    if k < |files| && GoesThrough(files, answer, k) {
      UploadFromMeetsStop(files, answer, k + 1);
      var stop := StopIndex(files, answer, k);
      assert UploadedBefore(files, k, stop) == [UploadedEvent(files[k])] + UploadedBefore(files, k + 1, stop);
    }
  }

  // ------------------------------------------------------ the state machine

  /** What the effects so far have produced: an issue, the open scratch directory if any, the uploads, the seen flag. */
  datatype TraceState = TraceState(issue: bool, dir: Option<string>, uploads: seq<string>, seen: bool)

  const Fresh := TraceState(false, None, [], false)

  /**
   * The state after one more event, or None when the event is out of order:
   * one issue at most; uploads only into an existing directory; the message
   * removed only when it is the one open; the message marked seen only once
   * the directory is gone.
   */
  function Apply(st: TraceState, e: Event): Option<TraceState>
  {
    match e
    case IssueCreated(_) => if st.issue then None else Some(st.(issue := true))
    case DirCreated(d) => if !st.issue || st.dir.Some? then None else Some(st.(dir := Some(d)))
    case Uploaded(name, _) => if st.dir.None? then None else Some(st.(uploads := st.uploads + [name]))
    case DirRemoved(d) => if st.dir != Some(d) then None else Some(st.(dir := None))
    case MarkedSeen(_) => if st.dir.Some? || st.seen then None else Some(st.(seen := true))
  }

  function Replay(events: seq<Event>, st: TraceState): Option<TraceState>
    decreases |events|
  {
    if events == [] then Some(st)
    else
      match Apply(st, events[0])
      case None => None
      case Some(next) => Replay(events[1..], next)
  }

  lemma {:induction false} ReplayAppend(a: seq<Event>, b: seq<Event>, st: TraceState)
    ensures Replay(a + b, st) ==
      match Replay(a, st)
      case None => None
      case Some(mid) => Replay(b, mid)
    decreases |a|
  {
    if a != [] {
      assert (a + b)[0] == a[0];
      assert (a + b)[1..] == a[1..] + b;
      if Apply(st, a[0]).Some? {
        ReplayAppend(a[1..], b, Apply(st, a[0]).value);
      }
    } else {
      assert a + b == b;
    }
  }

  function Names(files: seq<Staged>): seq<string>
  {
    seq(|files|, j requires 0 <= j < |files| => files[j].filename)
  }

  /** Replaying the uploads into an existing directory appends their file names. */
  lemma {:induction false} ReplayUploads(files: seq<Staged>, k: nat, stop: nat, st: TraceState)
    requires k <= stop <= |files|
    requires st.dir.Some?
    ensures Replay(UploadedBefore(files, k, stop), st) == Some(st.(uploads := st.uploads + Names(files[k..stop])))
    decreases stop - k
  {
    if k < stop {
      var ups := UploadedBefore(files, k, stop);
      assert ups[1..] == UploadedBefore(files, k + 1, stop);
      var next := st.(uploads := st.uploads + [files[k].filename]);
      assert ups[0] == UploadedEvent(files[k]);
      assert Apply(st, ups[0]) == Some(next);
      ReplayUploads(files, k + 1, stop, next);
      assert Names(files[k..stop]) == [files[k].filename] + Names(files[k + 1..stop]);
      assert next.uploads + Names(files[k + 1..stop]) == st.uploads + Names(files[k..stop]);
    } else {
      assert Names(files[k..stop]) == [];
      assert st.uploads + [] == st.uploads;
      assert UploadedBefore(files, k, stop) == [];
    }
  }

  // ---------------------------------------------------------- create_ticket

  datatype TicketOutcome =
    | ProjectNotFound                        // returns False before doing anything
    | EnumerationMissing(which: Enumeration) // raises before the issue exists
    | AttachmentRejected                     // returns False; the issue stays, the message stays unseen
    | AttachmentRaised                       // raises after cleanup; the issue stays, the message stays unseen
    | Committed                              // returns None; the message is marked seen

  datatype TicketRun = TicketRun(outcome: TicketOutcome, events: seq<Event>)

  /** `create_ticket(api, target, post)`: the tracking service's answers are the last four parameters. */
  function CreateTicket(
    target: string, post: Post,
    direct: Option<Project>, listing: seq<Listed>, assignee: string,
    answer: nat -> UploadOutcome): TicketRun
  {
    match ResolveProject(target, direct, listing)
    case None => TicketRun(ProjectNotFound, [])
    case Some(project) =>
      match ComposeIssue(post, project, assignee)
      case Failure(which) => TicketRun(EnumerationMissing(which), [])
      case Success(issue) =>
        var (result, uploads) := UploadFrom(StagedFiles(post), answer, 0);
        var staged := [IssueCreated(issue), DirCreated(post.messageId)] + uploads + [DirRemoved(post.messageId)];
        match result
        case AllUploaded => TicketRun(Committed, staged + [MarkedSeen(post.eId)])
        case UploadRejected => TicketRun(AttachmentRejected, staged)
        case UploadRaised => TicketRun(AttachmentRaised, staged)
  }

  /**
   * The outcome of `create_ticket` follows from project resolution, issue
   * composition and the first upload that does not go through: not found
   * exactly when resolution fails; a missing enumeration, the one
   * composition reports, exactly when composition fails; and, once the
   * issue exists, committed exactly when every upload goes through, a caught
   * `TaigaRestException` exactly when the stopping file was written and the
   * service rejected it, and an escaping error exactly when the file could
   * not be written or the service raised anything else.
   */
  lemma CreateTicketOutcome(target: string, post: Post, direct: Option<Project>, listing: seq<Listed>, assignee: string, answer: nat -> UploadOutcome)
    ensures var run := CreateTicket(target, post, direct, listing, assignee, answer);
      var resolved := ResolveProject(target, direct, listing);
      && (run.outcome == ProjectNotFound <==> resolved.None?)
      && (run.outcome.EnumerationMissing? <==> resolved.Some? && ComposeIssue(post, resolved.value, assignee).Failure?)
      && (run.outcome.EnumerationMissing? ==> run.outcome.which == ComposeIssue(post, resolved.value, assignee).error)
    ensures var run := CreateTicket(target, post, direct, listing, assignee, answer);
      var resolved := ResolveProject(target, direct, listing);
      var issued := resolved.Some? && ComposeIssue(post, resolved.value, assignee).Success?;
      var files := StagedFiles(post);
      var stop := StopIndex(files, answer, 0);
      && (run.outcome == Committed <==> issued && stop == |files|)
      && (run.outcome == AttachmentRejected <==>
            issued && stop < |files| && files[stop].writable && answer(stop) == Rejected)
      && (run.outcome == AttachmentRaised <==>
            issued && stop < |files| && (!files[stop].writable || answer(stop) == Raised))
  {
    match ResolveProject(target, direct, listing)
    case None =>
    case Some(project) =>
      match ComposeIssue(post, project, assignee)
      case Failure(_) =>
      case Success(issue) =>
        UploadFromMeetsStop(StagedFiles(post), answer, 0);
  }

  /**
   * The effects of `create_ticket`, when there are any, start with the
   * composed issue and its directory; a committed run ends with the seen
   * flag, and a run stopped by an upload ends with the cleanup.
   */
  lemma CreateTicketEvents(target: string, post: Post, direct: Option<Project>, listing: seq<Listed>, assignee: string, answer: nat -> UploadOutcome)
    ensures var run := CreateTicket(target, post, direct, listing, assignee, answer);
      var resolved := ResolveProject(target, direct, listing);
      && (run.events != [] ==>
        && resolved.Some? && ComposeIssue(post, resolved.value, assignee).Success?
        && |run.events| >= 3
        && run.events[0] == IssueCreated(ComposeIssue(post, resolved.value, assignee).value)
        && run.events[1] == DirCreated(post.messageId))
      && (run.outcome == Committed ==>
        && |run.events| >= 4
        && run.events[|run.events| - 1] == MarkedSeen(post.eId)
        && run.events[|run.events| - 2] == DirRemoved(post.messageId))
      && (run.outcome == AttachmentRejected || run.outcome == AttachmentRaised ==>
        |run.events| >= 3 && run.events[|run.events| - 1] == DirRemoved(post.messageId))
  {
    match ResolveProject(target, direct, listing)
    case None =>
    case Some(project) =>
      match ComposeIssue(post, project, assignee)
      case Failure(_) =>
      case Success(issue) =>
        var (result, uploads) := UploadFrom(StagedFiles(post), answer, 0);
        var staged := [IssueCreated(issue), DirCreated(post.messageId)] + uploads + [DirRemoved(post.messageId)];
        assert staged[0] == IssueCreated(issue) && staged[1] == DirCreated(post.messageId);
        assert staged[|staged| - 1] == DirRemoved(post.messageId);
        var events := CreateTicket(target, post, direct, listing, assignee, answer).events;
        assert events == if result == AllUploaded then staged + [MarkedSeen(post.eId)] else staged;
  }

  /** An unknown project stops everything before any effect: no issue, no directory, no seen flag. */
  lemma NotFoundHasNoEffect(target: string, post: Post, direct: Option<Project>, listing: seq<Listed>, assignee: string, answer: nat -> UploadOutcome)
    requires direct.None?
    requires forall i :: 0 <= i < |listing| ==> Slugs.CamelCaseToSlug(listing[i].name) != target
    ensures CreateTicket(target, post, direct, listing, assignee, answer) == TicketRun(ProjectNotFound, [])
  {
    ResolveTakesLastMatch(target, listing);
  }

  /**
   * The events every run that reaches the uploads produces, before any seen
   * flag: the issue, the directory, the accepted uploads and the cleanup
   * replay to a state with the issue, no directory and those uploads.
   */
  lemma ReplayStaged(issue: Issue, dir: string, files: seq<Staged>, stop: nat)
    requires stop <= |files|
    ensures Replay([IssueCreated(issue), DirCreated(dir)] + UploadedBefore(files, 0, stop) + [DirRemoved(dir)], Fresh)
      == Some(TraceState(true, None, Names(files[..stop]), false))
  {
    var uploads := UploadedBefore(files, 0, stop);
    var dirOpen := TraceState(true, Some(dir), [], false);
    var head := [IssueCreated(issue), DirCreated(dir)];
    var withIssue := Fresh.(issue := true);
    assert Apply(Fresh, IssueCreated(issue)) == Some(withIssue);
    assert Apply(withIssue, DirCreated(dir)) == Some(dirOpen);
    assert head[1..] == [DirCreated(dir)];
    assert Replay([DirCreated(dir)], withIssue) == Some(dirOpen);
    assert Replay(head, Fresh) == Some(dirOpen);
    ReplayUploads(files, 0, stop, dirOpen);
    var afterUploads := dirOpen.(uploads := Names(files[0..stop]));
    var closed := afterUploads.(dir := None);
    assert [] + Names(files[0..stop]) == Names(files[0..stop]);
    assert Replay(uploads, dirOpen) == Some(afterUploads);
    assert Replay([DirRemoved(dir)], afterUploads) == Some(closed);
    ReplayAppend(head, uploads, Fresh);
    ReplayAppend(head + uploads, [DirRemoved(dir)], Fresh);
    assert files[..stop] == files[0..stop];
  }

  /**
   * Every run of `create_ticket` is a legal trace that ends with the scratch
   * directory gone; the message is marked seen exactly when the run
   * committed, which is exactly when every upload went through; and the
   * uploads are `message.eml` and then the attachments, in order, up to the
   * first that failed.
   */
  lemma CreateTicketTrace(target: string, post: Post, direct: Option<Project>, listing: seq<Listed>, assignee: string, answer: nat -> UploadOutcome)
    ensures var run := CreateTicket(target, post, direct, listing, assignee, answer);
      var files := StagedFiles(post);
      var stop := StopIndex(files, answer, 0);
      && Replay(run.events, Fresh).Some?
      && Replay(run.events, Fresh).value.dir.None?
      && (Replay(run.events, Fresh).value.seen <==> run.outcome == Committed)
      && (run.outcome.ProjectNotFound? || run.outcome.EnumerationMissing? <==> run.events == [])
      && (run.events != [] ==>
            && Replay(run.events, Fresh).value.uploads == Names(files[..stop])
            && (run.outcome == Committed <==> stop == |files|))
  {
    match ResolveProject(target, direct, listing)
    case None =>
    case Some(project) =>
      match ComposeIssue(post, project, assignee)
      case Failure(_) =>
      case Success(issue) =>
        var files := StagedFiles(post);
        var stop := StopIndex(files, answer, 0);
        UploadFromMeetsStop(files, answer, 0);
        var result := UploadFrom(files, answer, 0).0;
        var staged := [IssueCreated(issue), DirCreated(post.messageId)] + UploadedBefore(files, 0, stop) + [DirRemoved(post.messageId)];
        var closed := TraceState(true, None, Names(files[..stop]), false);
        ReplayStaged(issue, post.messageId, files, stop);
        if result == AllUploaded {
          assert Replay([MarkedSeen(post.eId)], closed) == Some(closed.(seen := true));
          ReplayAppend(staged, [MarkedSeen(post.eId)], Fresh);
        }
  }

  /** The mailbox flag is set, for this message only, exactly when the run committed. */
  lemma SeenExactlyWhenCommitted(target: string, post: Post, direct: Option<Project>, listing: seq<Listed>, assignee: string, answer: nat -> UploadOutcome)
    ensures var run := CreateTicket(target, post, direct, listing, assignee, answer);
      && (MarkedSeen(post.eId) in run.events <==> run.outcome == Committed)
      && forall e :: e in run.events && e.MarkedSeen? ==> e == MarkedSeen(post.eId)
  {
    match ResolveProject(target, direct, listing)
    case None =>
    case Some(project) =>
      match ComposeIssue(post, project, assignee)
      case Failure(_) =>
      case Success(issue) =>
        var (result, uploads) := UploadFrom(StagedFiles(post), answer, 0);
        assert forall e :: e in uploads ==> e.Uploaded?;
        var staged := [IssueCreated(issue), DirCreated(post.messageId)] + uploads + [DirRemoved(post.messageId)];
        assert forall e :: e in staged ==> !e.MarkedSeen?;
  }

  /**
   * A message without attachments to a project offering the four fixed names,
   * whose one upload is accepted: the issue, the directory, `message.eml`,
   * the cleanup and the seen flag, in that order.
   */
  lemma SingleFileCommit(target: string, post: Post, project: Project, assignee: string, answer: nat -> UploadOutcome)
    requires post.attachments == [] && answer(0) == Accepted
    requires "High" in project.priorities && "New" in project.statuses
    requires "Bug" in project.issueTypes && "Minor" in project.severities
    ensures var issue := Issue(post.subject, Description(post), "High", "New", "Bug", "Minor", assignee);
      CreateTicket(target, post, Some(project), [], assignee, answer) == TicketRun(Committed, [
        IssueCreated(issue), DirCreated(post.messageId),
        Uploaded("message.eml", "The original mail message"),
        DirRemoved(post.messageId), MarkedSeen(post.eId)])
  {
    var files := StagedFiles(post);
    assert |files| == 1;
    assert UploadFrom(files, answer, 1) == (AllUploaded, []);
    assert files[0].writable && UploadedEvent(files[0]) == Uploaded("message.eml", "The original mail message");
    assert [UploadedEvent(files[0])] + [] == [UploadedEvent(files[0])];
    assert UploadFrom(files, answer, 0) == (AllUploaded, [Uploaded("message.eml", "The original mail message")]);
  }
}

=== FILE: mime.dfy ===
/**
 * The MIME decoding done by `decode_email` and `collect_emails`.
 *
 * The email library is not modelled: a message arrives already split into
 * its header fields and its parts in `walk()` order, and each part carries
 * the outcome of `get_payload(decode=True).decode()` as `decoded` (None
 * where that call raises). A header field carries the segments
 * `decode_header` returns, each with the outcome of `.decode(charset)`.
 */
module Mime {
  import opened Wrappers
  import opened Sequences

  newtype byte = x: int | 0 <= x < 256

  /** One `(value, charset)` pair from `decode_header`, after `.decode(charset)`: None where that raised. */
  datatype Segment = Segment(text: Option<string>)

  /** A header as the parsed message holds it: absent, or its raw text and its decoded segments (never fewer than one). */
  datatype HeaderField =
    | Absent
    | Present(raw: string, first: Segment, rest: seq<Segment>)

  /** One MIME part as `walk()` yields it. */
  datatype Part = Part(
    contentType: string,
    disposition: Option<string>,  // the Content-Disposition header, if any
    filename: Option<string>,     // get_filename()
    payload: Option<seq<byte>>,   // get_payload(decode=True); None for a container part
    decoded: Option<string>)      // the payload decoded as text; None where decoding raised

  datatype Structure =
    | Flat(part: Part)            // is_multipart() is false
    | Multipart(walk: seq<Part>)  // walk() order, the container itself first

  /** A fetched message: the mailbox identifier, the five headers read, its serialised form and its structure. */
  datatype RawMessage = RawMessage(
    eId: string,
    to: HeaderField,
    from: HeaderField,
    subject: HeaderField,
    date: HeaderField,
    messageId: HeaderField,
    original: string,
    structure: Structure)

  datatype Attachment = Attachment(filename: string, content: Option<seq<byte>>)

  /** The dictionary `collect_emails` builds for one message. */
  datatype Post = Post(
    eId: string,
    to: Option<string>,
    from: Option<string>,
    subject: Option<string>,
    date: Option<string>,
    messageId: string,
    original: string,
    text: string,
    html: string,
    attachments: seq<Attachment>)

  datatype HeaderName = ToHeader | FromHeader | SubjectHeader | DateHeader | MessageIdHeader

  /** Why decoding a message raised. */
  datatype DecodeError =
    | HeaderUndecodable(name: HeaderName)  // `.decode(charset)` raised in decode_email
    | BodyUnbound                          // a text part was reached before any payload decoded: NameError
    | FlatBodyUndecodable                  // a single-part message whose payload did not decode

  // ---------------------------------------------------------------- headers

  /**
   * `decode_email`: None for a missing or empty header, otherwise the text of
   * the FIRST segment only; later encoded words are dropped.
   */
  function DecodeHeader(h: HeaderField): (r: Result<Option<string>, ()>)
    ensures h.Absent? ==> r == Success(None)
    ensures h.Present? && h.raw == "" ==> r == Success(None)
    ensures h.Present? && h.raw != "" ==> (r.Failure? <==> h.first.text.None?)
    ensures h.Present? && h.raw != "" && h.first.text.Some? ==> r == Success(h.first.text)
    ensures r.Success? && r.value.Some? ==> h.Present? && r.value == h.first.text
  {
    if h.Absent? || h.raw == "" then Success(None)
    else if h.first.text.None? then Failure(())
    else Success(h.first.text)
  }

  /** Whatever the segments after the first hold, even undecodable ones, they do not change the result. */
  lemma HeaderKeepsFirstSegmentOnly(raw: string, first: Segment, rest1: seq<Segment>, rest2: seq<Segment>)
    ensures DecodeHeader(Present(raw, first, rest1)) == DecodeHeader(Present(raw, first, rest2))
  {
  }

  // -------------------------------------------------------------- parts

  /** How Python's `str()` or an f-string prints an optional header: absent shows as "None". */
  function Show(v: Option<string>): string
  {
    match v
    case None => "None"
    case Some(s) => s
  }

  /** `str(part.get("Content-Disposition"))`. */
  function DispositionText(p: Part): string
  {
    Show(p.disposition)
  }

  /** Python's `sub in s`: `sub` occurs in `s` at some offset. */
  predicate ContainsSubstring(s: string, sub: string)
    decreases |s|
  {
    |sub| <= |s| && (s[..|sub|] == sub || ContainsSubstring(s[1..], sub))
  }

  /** Which branch of the if/elif chain a part takes. */
  datatype Slot = TextSlot | HtmlSlot | AttachmentSlot | Skipped

  function Classify(p: Part): (s: Slot)
    ensures s == TextSlot <==> p.contentType == "text/plain" && !ContainsSubstring(DispositionText(p), "attachment")
    ensures s == HtmlSlot <==> p.contentType == "text/html"
    ensures s == AttachmentSlot <==>
      && !(p.contentType == "text/plain" && !ContainsSubstring(DispositionText(p), "attachment"))
      && p.contentType != "text/html" && p.filename.Some?
  {
    if p.contentType == "text/plain" && !ContainsSubstring(DispositionText(p), "attachment") then TextSlot
    else if p.contentType == "text/html" then HtmlSlot
    else if p.filename.Some? then AttachmentSlot
    else Skipped
  }

  predicate ReadsBody(p: Part) {
    Classify(p) == TextSlot || Classify(p) == HtmlSlot
  }

  predicate Decodes(p: Part) {
    p.decoded.Some?
  }

  predicate IsText(p: Part) {
    Classify(p) == TextSlot
  }

  predicate IsHtml(p: Part) {
    Classify(p) == HtmlSlot
  }

  predicate IsAttachment(p: Part) {
    Classify(p) == AttachmentSlot
  }

  function AttachmentFrom(p: Part): Attachment
    requires p.filename.Some?
  {
    Attachment(p.filename.value, p.payload)
  }

  /** The state of the part loop: the three outputs and the reused `body` variable (None while unbound). */
  datatype Walked = Walked(text: string, html: string, attachments: seq<Attachment>, body: Option<string>)

  /** One iteration of the part loop. */
  function Step(w: Walked, p: Part): (r: Result<Walked, DecodeError>)
    ensures r.Failure? <==> ReadsBody(p) && p.decoded.None? && w.body.None?
    ensures r.Failure? ==> r.error == BodyUnbound
    ensures r.Success? ==> r.value.body == (if p.decoded.Some? then p.decoded else w.body)
    ensures r.Success? && IsText(p) ==> r.value.text == r.value.body.value && r.value.html == w.html
    ensures r.Success? && IsHtml(p) ==> r.value.html == r.value.body.value && r.value.text == w.text
    ensures r.Success? && IsAttachment(p) ==> r.value.attachments == w.attachments + [AttachmentFrom(p)]
    ensures r.Success? && !IsAttachment(p) ==> r.value.attachments == w.attachments
  {
    var body := if p.decoded.Some? then p.decoded else w.body;
    match Classify(p)
    case TextSlot =>
      if body.None? then Failure(BodyUnbound) else Success(w.(text := body.value, body := body))
    case HtmlSlot =>
      if body.None? then Failure(BodyUnbound) else Success(w.(html := body.value, body := body))
    case AttachmentSlot =>
      Success(w.(attachments := w.attachments + [AttachmentFrom(p)], body := body))
    case Skipped =>
      Success(w.(body := body))
  }

  /**
   * The part loop over `parts` in order, starting from empty text, html and
   * attachments. `body` is a local of `collect_emails`, not of the loop: it
   * enters holding `carried`, whatever the previous message left in it.
   */
  function Walk(parts: seq<Part>, carried: Option<string>): (r: Result<Walked, DecodeError>)
    ensures r.Failure? ==> r.error == BodyUnbound && carried.None?
    ensures r.Success? && carried.Some? ==> r.value.body.Some?
    decreases |parts|
  {
    if parts == [] then Success(Walked("", "", [], carried))
    else
      match Walk(parts[..|parts| - 1], carried)
      case Failure(e) => Failure(e)
      case Success(w) => Step(w, parts[|parts| - 1])
  }

  // ------------------------------------------- reference definitions for the walk

  /** The value of `body` once part `i` has been visited: the last payload decoded at or before `i`, else what it entered with. */
  function BodyAt(parts: seq<Part>, i: nat, carried: Option<string>): Option<string>
    requires i < |parts|
  {
    match LastIndex(parts[..i + 1], Decodes)
    case None => carried
    case Some(j) => parts[j].decoded
  }

  /** Every text or html part is reached with `body` bound. */
  predicate BodyBoundAtEveryRead(parts: seq<Part>, carried: Option<string>) {
    forall i :: 0 <= i < |parts| && ReadsBody(parts[i]) ==> BodyAt(parts, i, carried).Some?
  }

  /** The body seen by the last part satisfying `P`, or "" when there is none. */
  function LastBodyOf(parts: seq<Part>, P: Part -> bool, carried: Option<string>): string
  {
    match LastIndex(parts, P)
    case None => ""
    case Some(i) => BodyAt(parts, i, carried).GetOr("")
  }

  /** Indices of the parts that become attachments, in walk order. */
  function AttachmentPositions(parts: seq<Part>): (idx: seq<nat>)
    ensures forall k :: 0 <= k < |idx| ==> idx[k] < |parts| && IsAttachment(parts[idx[k]])
    ensures forall k, l :: 0 <= k < l < |idx| ==> idx[k] < idx[l]
    ensures forall i :: 0 <= i < |parts| && IsAttachment(parts[i]) ==> i in idx
    decreases |parts|
  {
    if parts == [] then []
    else
      var init := AttachmentPositions(parts[..|parts| - 1]);
      if IsAttachment(parts[|parts| - 1]) then init + [|parts| - 1] else init
  }

  // ------------------------------------------------ the walk meets the reference

  lemma PrefixOfSnoc(parts: seq<Part>, i: nat)
    requires 0 < |parts| && i < |parts| - 1
    ensures parts[..|parts| - 1][..i + 1] == parts[..i + 1]
  {
  }

  /** Visiting one more part does not change what earlier parts saw. */
  lemma BodyAtSnoc(parts: seq<Part>, i: nat, carried: Option<string>)
    requires 0 < |parts| && i < |parts| - 1
    ensures BodyAt(parts[..|parts| - 1], i, carried) == BodyAt(parts, i, carried)
  {
    PrefixOfSnoc(parts, i);
  }

  /** `LastIndex` on a longer sequence either finds the new last element or agrees with the prefix. */
  lemma LastIndexSnoc(parts: seq<Part>, P: Part -> bool)
    requires 0 < |parts|
    ensures LastIndex(parts, P) == if P(parts[|parts| - 1]) then Some(|parts| - 1) else LastIndex(parts[..|parts| - 1], P)
  {
  }

  /** The value of `body` after the whole loop. */
  function FinalBody(parts: seq<Part>, carried: Option<string>): Option<string>
  {
    if parts == [] then carried else BodyAt(parts, |parts| - 1, carried)
  }

  /** `body` after one more part: that part's payload if it decoded, else the previous value. */
  lemma FinalBodySnoc(parts: seq<Part>, carried: Option<string>)
    requires 0 < |parts|
    ensures var p := parts[|parts| - 1];
      FinalBody(parts, carried) == if p.decoded.Some? then p.decoded else FinalBody(parts[..|parts| - 1], carried)
  {
    var n := |parts| - 1;
    assert parts[..n + 1] == parts;
    LastIndexSnoc(parts, Decodes);
    if n > 0 {
      BodyAtSnoc(parts, n - 1, carried);
      assert parts[..n][..n] == parts[..n];
    }
  }

  /** Reads of the parts before the last are bound in `parts` exactly when they are bound in the prefix. */
  lemma BoundAtEveryReadSnoc(parts: seq<Part>, carried: Option<string>)
    requires 0 < |parts|
    ensures var n := |parts| - 1;
      BodyBoundAtEveryRead(parts, carried) <==>
        BodyBoundAtEveryRead(parts[..n], carried) && (ReadsBody(parts[n]) ==> BodyAt(parts, n, carried).Some?)
  {
    var n := |parts| - 1;
    forall i | 0 <= i < n
      ensures BodyAt(parts[..n], i, carried) == BodyAt(parts, i, carried)
    {
      BodyAtSnoc(parts, i, carried);
    }
  }

  /** The part loop succeeds exactly when every text or html part is reached with `body` bound, and leaves `body` at the last decoded payload. */
  lemma {:induction false} WalkSucceeds(parts: seq<Part>, carried: Option<string>)
    ensures Walk(parts, carried).Success? <==> BodyBoundAtEveryRead(parts, carried)
    ensures Walk(parts, carried).Success? ==> Walk(parts, carried).value.body == FinalBody(parts, carried)
    decreases |parts|
  {
    if parts != [] {
      var n := |parts| - 1;
      var init := parts[..n];
      WalkSucceeds(init, carried);
      BoundAtEveryReadSnoc(parts, carried);
      FinalBodySnoc(parts, carried);
      assert BodyAt(parts, n, carried) == FinalBody(parts, carried);
      if Walk(init, carried).Success? {
        assert Walk(parts, carried) == Step(Walk(init, carried).value, parts[n]);
      }
    }
  }

  /** `LastBodyOf` on a longer sequence: the new part's body if it qualifies, else the prefix's answer. */
  lemma LastBodyOfSnoc(parts: seq<Part>, P: Part -> bool, carried: Option<string>)
    requires 0 < |parts|
    ensures LastBodyOf(parts, P, carried) ==
      if P(parts[|parts| - 1]) then FinalBody(parts, carried).GetOr("") else LastBodyOf(parts[..|parts| - 1], P, carried)
  {
    var n := |parts| - 1;
    LastIndexSnoc(parts, P);
    var k := LastIndex(parts[..n], P);
    if !P(parts[n]) && k.Some? {
      BodyAtSnoc(parts, k.value, carried);
    }
  }

  /** After a successful loop, `text` is what the last plain-text part saw, or "" when there is none. */
  lemma {:induction false} WalkText(parts: seq<Part>, carried: Option<string>)
    requires Walk(parts, carried).Success?
    ensures Walk(parts, carried).value.text == LastBodyOf(parts, IsText, carried)
    decreases |parts|
  {
    if parts != [] {
      WalkText(parts[..|parts| - 1], carried);
      WalkSucceeds(parts, carried);
      WalkSucceeds(parts[..|parts| - 1], carried);
      FinalBodySnoc(parts, carried);
      LastBodyOfSnoc(parts, IsText, carried);
    }
  }

  /** After a successful loop, `html` is what the last html part saw, or "" when there is none. */
  lemma {:induction false} WalkHtml(parts: seq<Part>, carried: Option<string>)
    requires Walk(parts, carried).Success?
    ensures Walk(parts, carried).value.html == LastBodyOf(parts, IsHtml, carried)
    decreases |parts|
  {
    if parts != [] {
      WalkHtml(parts[..|parts| - 1], carried);
      WalkSucceeds(parts, carried);
      WalkSucceeds(parts[..|parts| - 1], carried);
      FinalBodySnoc(parts, carried);
      LastBodyOfSnoc(parts, IsHtml, carried);
    }
  }

  /** The attachments of `parts`, read off their positions. */
  function AttachmentsAt(parts: seq<Part>, idx: seq<nat>): seq<Attachment>
    requires forall k :: 0 <= k < |idx| ==> idx[k] < |parts| && IsAttachment(parts[idx[k]])
  {
    seq(|idx|, k requires 0 <= k < |idx| => var p := parts[idx[k]]; assert IsAttachment(p); AttachmentFrom(p))
  }

  /** Reading positions off a longer sequence gives the same attachments as off the prefix. */
  lemma AttachmentsAtSnoc(parts: seq<Part>, idx: seq<nat>)
    requires 0 < |parts|
    requires forall k :: 0 <= k < |idx| ==> idx[k] < |parts| - 1 && IsAttachment(parts[idx[k]])
    ensures AttachmentsAt(parts[..|parts| - 1], idx) == AttachmentsAt(parts, idx)
  {
  }

  /** One more position appends one more attachment. */
  lemma AttachmentsAtAppend(parts: seq<Part>, idx: seq<nat>, i: nat)
    requires forall k :: 0 <= k < |idx| ==> idx[k] < |parts| && IsAttachment(parts[idx[k]])
    requires i < |parts| && IsAttachment(parts[i])
    ensures AttachmentsAt(parts, idx + [i]) == AttachmentsAt(parts, idx) + [AttachmentFrom(parts[i])]
  {
  }

  /** After a successful loop, the attachments are exactly the attachment parts, in walk order. */
  lemma {:induction false} WalkAttachments(parts: seq<Part>, carried: Option<string>)
    requires Walk(parts, carried).Success?
    ensures Walk(parts, carried).value.attachments == AttachmentsAt(parts, AttachmentPositions(parts))
    decreases |parts|
  {
    if parts != [] {
      var init := parts[..|parts| - 1];
      var p := parts[|parts| - 1];
      var before := AttachmentPositions(init);
      WalkAttachments(init, carried);
      AttachmentsAtSnoc(parts, before);
      if IsAttachment(p) {
        AttachmentsAtAppend(parts, before, |parts| - 1);
      }
    }
  }

  /**
   * The part loop against its reference: it succeeds exactly when every text
   * or html part is reached with `body` bound; `text` and `html` are what the
   * last part of their kind saw; the attachments are the attachment parts in
   * walk order.
   */
  lemma WalkMeetsReference(parts: seq<Part>, carried: Option<string>)
    ensures Walk(parts, carried).Success? <==> BodyBoundAtEveryRead(parts, carried)
    ensures Walk(parts, carried).Success? ==>
      && Walk(parts, carried).value.text == LastBodyOf(parts, IsText, carried)
      && Walk(parts, carried).value.html == LastBodyOf(parts, IsHtml, carried)
      && Walk(parts, carried).value.attachments == AttachmentsAt(parts, AttachmentPositions(parts))
  {
    WalkSucceeds(parts, carried);
    if Walk(parts, carried).Success? {
      WalkText(parts, carried);
      WalkHtml(parts, carried);
      WalkAttachments(parts, carried);
    }
  }

  /**
   * A container, a plain-text part, an html part and a binary attachment:
   * text and html take their parts' bodies and the attachment keeps its
   * filename and exact bytes.
   */
  lemma MultipartExample(pdf: seq<byte>)
    ensures var parts := [
        Part("multipart/mixed", None, None, None, None),
        Part("text/plain", None, None, Some([]), Some("Please help")),
        Part("text/html", None, None, Some([]), Some("<p>Please help</p>")),
        Part("application/pdf", Some("attachment"), Some("a.pdf"), Some(pdf), None)];
      Walk(parts, None) == Success(Walked("Please help", "<p>Please help</p>", [Attachment("a.pdf", Some(pdf))], Some("<p>Please help</p>")))
  {
    var parts := [
        Part("multipart/mixed", None, None, None, None),
        Part("text/plain", None, None, Some([]), Some("Please help")),
        Part("text/html", None, None, Some([]), Some("<p>Please help</p>")),
        Part("application/pdf", Some("attachment"), Some("a.pdf"), Some(pdf), None)];
    assert Classify(parts[0]) == Skipped;
    assert !ContainsSubstring("None", "attachment");
    assert Classify(parts[1]) == TextSlot;
    assert Classify(parts[2]) == HtmlSlot;
    assert Classify(parts[3]) == AttachmentSlot;
    assert Walk(parts[..1], None) == Success(Walked("", "", [], None));
    assert parts[..2][..1] == parts[..1];
    assert Walk(parts[..2], None) == Success(Walked("Please help", "", [], Some("Please help")));
    assert parts[..3][..2] == parts[..2];
    assert Walk(parts[..3], None) == Success(Walked("Please help", "<p>Please help</p>", [], Some("<p>Please help</p>")));
    assert parts[..3] == parts[..|parts| - 1];
    assert AttachmentFrom(parts[3]) == Attachment("a.pdf", Some(pdf));
    var w3 := Walked("Please help", "<p>Please help</p>", [], Some("<p>Please help</p>"));
    assert Walk(parts, None) == Step(w3, parts[3]);
    assert [] + [Attachment("a.pdf", Some(pdf))] == [Attachment("a.pdf", Some(pdf))];
    assert Step(w3, parts[3]) == Success(w3.(attachments := [Attachment("a.pdf", Some(pdf))]));
  }

  /** A plain-text part that does not decode takes the body of the part before it. */
  lemma BodyReuseExample()
    ensures var parts := [
        Part("text/html", None, None, Some([]), Some("<p>hi</p>")),
        Part("text/plain", None, None, Some([]), None)];
      Walk(parts, None) == Success(Walked("<p>hi</p>", "<p>hi</p>", [], Some("<p>hi</p>")))
  {
    var parts := [
        Part("text/html", None, None, Some([]), Some("<p>hi</p>")),
        Part("text/plain", None, None, Some([]), None)];
    assert Classify(parts[0]) == HtmlSlot;
    assert !ContainsSubstring("None", "attachment");
    assert Classify(parts[1]) == TextSlot;
    assert Walk(parts[..1], None) == Success(Walked("", "<p>hi</p>", [], Some("<p>hi</p>")));
  }

  /**
   * A plain-text part reached before any payload decoded, in this message or
   * an earlier one of the run, raises NameError, which drops the message.
   */
  lemma BodyUnboundExample()
    ensures var parts := [
        Part("multipart/alternative", None, None, None, None),
        Part("text/plain", None, None, Some([]), None)];
      Walk(parts, None) == Failure(BodyUnbound)
  {
    var parts := [
        Part("multipart/alternative", None, None, None, None),
        Part("text/plain", None, None, Some([]), None)];
    assert Classify(parts[0]) == Skipped;
    assert !ContainsSubstring("None", "attachment");
    assert Classify(parts[1]) == TextSlot;
    assert Walk(parts[..1], None) == Success(Walked("", "", [], None));
  }

  /** `body` survives from one message to the next: an undecodable plain-text part takes what the previous message left. */
  lemma BodyCarried(previous: string)
    ensures Walk([Part("text/plain", None, None, Some([]), None)], Some(previous))
      == Success(Walked(previous, "", [], Some(previous)))
  {
    var parts := [Part("text/plain", None, None, Some([]), None)];
    assert !ContainsSubstring("None", "attachment");
    assert Classify(parts[0]) == TextSlot;
    assert parts[..0] == [];
  }

  // ------------------------------------------------------------ a message

  function HeaderOrFail(h: HeaderField, name: HeaderName): Result<Option<string>, DecodeError>
  {
    match DecodeHeader(h)
    case Failure(_) => Failure(HeaderUndecodable(name))
    case Success(v) => Success(v)
  }

  /** The body fields of a single-part message: its decoded payload goes to text or html by content type; no attachments. */
  function FlatBody(p: Part): (r: Result<Walked, DecodeError>)
    ensures r.Failure? <==> p.decoded.None?
    ensures r.Failure? ==> r.error == FlatBodyUndecodable
    ensures r.Success? ==> r.value.attachments == [] && r.value.body == p.decoded
  {
    if p.decoded.None? then Failure(FlatBodyUndecodable)
    else if p.contentType == "text/plain" then Success(Walked(p.decoded.value, "", [], p.decoded))
    else if p.contentType == "text/html" then Success(Walked("", p.decoded.value, [], p.decoded))
    else Success(Walked("", "", [], p.decoded))
  }

  /** Every one of the five headers read decodes. */
  predicate HeadersDecode(raw: RawMessage) {
    && DecodeHeader(raw.to).Success? && DecodeHeader(raw.from).Success? && DecodeHeader(raw.subject).Success?
    && DecodeHeader(raw.date).Success? && DecodeHeader(raw.messageId).Success?
  }

  /** A decoded message, with the value `body` holds afterwards. */
  datatype Decoded = Decoded(post: Post, body: Option<string>)

  /**
   * The body of the `try` in `collect_emails` for one message. `freshId`
   * stands for `str(uuid.uuid4())`, used when the Message-ID is missing or
   * empty; `carried` is what `body` holds on entry. An undecodable `To`
   * header fails before anything else is looked at.
   */
  function DecodeMessage(raw: RawMessage, freshId: string, carried: Option<string>): (r: Result<Decoded, DecodeError>)
    ensures r == Failure(HeaderUndecodable(ToHeader)) <==> DecodeHeader(raw.to).Failure?
    ensures DecodeHeader(raw.to).Success? && DecodeHeader(raw.from).Failure? ==> r == Failure(HeaderUndecodable(FromHeader))
    ensures DecodeHeader(raw.to).Success? && DecodeHeader(raw.from).Success? && DecodeHeader(raw.subject).Failure? ==>
      r == Failure(HeaderUndecodable(SubjectHeader))
    ensures (DecodeHeader(raw.to).Success? && DecodeHeader(raw.from).Success? && DecodeHeader(raw.subject).Success?
      && DecodeHeader(raw.date).Failure?) ==> r == Failure(HeaderUndecodable(DateHeader))
    ensures (DecodeHeader(raw.to).Success? && DecodeHeader(raw.from).Success? && DecodeHeader(raw.subject).Success?
      && DecodeHeader(raw.date).Success? && DecodeHeader(raw.messageId).Failure?) ==> r == Failure(HeaderUndecodable(MessageIdHeader))
    ensures r.Success? ==> HeadersDecode(raw)
    ensures r.Success? ==> r.value.post.eId == raw.eId && r.value.post.original == raw.original
    ensures r.Success? ==>
      && r.value.post.to == DecodeHeader(raw.to).value
      && r.value.post.from == DecodeHeader(raw.from).value
      && r.value.post.subject == DecodeHeader(raw.subject).value
      && r.value.post.date == DecodeHeader(raw.date).value
    ensures HeadersDecode(raw) && raw.structure.Flat? ==> (r.Success? <==> raw.structure.part.decoded.Some?)
    ensures r.Success? && raw.structure.Flat? ==> r.value.post.attachments == [] && r.value.body == raw.structure.part.decoded
    ensures HeadersDecode(raw) && raw.structure.Multipart? ==> (r.Success? <==> Walk(raw.structure.walk, carried).Success?)
    ensures r.Success? && raw.structure.Multipart? ==>
      var w := Walk(raw.structure.walk, carried).value;
      && r.value.post.text == w.text && r.value.post.html == w.html
      && r.value.post.attachments == w.attachments && r.value.body == w.body
  {
    var to :- HeaderOrFail(raw.to, ToHeader);
    var from :- HeaderOrFail(raw.from, FromHeader);
    var subject :- HeaderOrFail(raw.subject, SubjectHeader);
    var date :- HeaderOrFail(raw.date, DateHeader);
    var messageId :- HeaderOrFail(raw.messageId, MessageIdHeader);
    var id := if messageId.Some? && messageId.value != "" then messageId.value else freshId;
    var body :- match raw.structure
      case Flat(p) => FlatBody(p)
      case Multipart(parts) => Walk(parts, carried);
    Success(Decoded(Post(raw.eId, to, from, subject, date, id, raw.original, body.text, body.html, body.attachments), body.body))
  }

  /** A present, non-empty Message-ID is kept; otherwise the fresh identifier is used, so the id is never empty. */
  lemma MessageIdFallback(raw: RawMessage, freshId: string, carried: Option<string>)
    requires freshId != ""
    requires DecodeMessage(raw, freshId, carried).Success?
    ensures var id := DecodeMessage(raw, freshId, carried).value.post.messageId;
      && id != ""
      && (match DecodeHeader(raw.messageId)
          case Success(Some(v)) => id == (if v != "" then v else freshId)
          case _ => id == freshId)
  {
  }

  /** A single-part message puts its decoded payload in text or html by content type, and never has attachments. */
  lemma FlatMessageBody(raw: RawMessage, freshId: string, carried: Option<string>)
    requires raw.structure.Flat? && DecodeMessage(raw, freshId, carried).Success?
    ensures var post := DecodeMessage(raw, freshId, carried).value.post;
      var p := raw.structure.part;
      && post.attachments == []
      && p.decoded.Some?
      && post.text == (if p.contentType == "text/plain" then p.decoded.value else "")
      && post.html == (if p.contentType == "text/html" then p.decoded.value else "")
  {
  }

  /**
   * A multipart message against the reference of the part loop: it decodes
   * exactly when every header decodes and every text or html part is reached
   * with `body` bound; its text and html are what the last part of each kind
   * saw; its attachments are the attachment parts in walk order.
   */
  lemma MultipartMessageMeetsReference(raw: RawMessage, freshId: string, carried: Option<string>)
    requires raw.structure.Multipart?
    ensures var parts := raw.structure.walk;
      DecodeMessage(raw, freshId, carried).Success? <==> HeadersDecode(raw) && BodyBoundAtEveryRead(parts, carried)
    ensures var parts := raw.structure.walk;
      DecodeMessage(raw, freshId, carried).Success? ==>
        var post := DecodeMessage(raw, freshId, carried).value.post;
        && post.text == LastBodyOf(parts, IsText, carried)
        && post.html == LastBodyOf(parts, IsHtml, carried)
        && post.attachments == AttachmentsAt(parts, AttachmentPositions(parts))
  {
    WalkMeetsReference(raw.structure.walk, carried);
  }
}

=== FILE: pipeline.dfy ===
/**
 * The two loops of the script: `collect_emails`, which decodes every unseen
 * message and skips the ones whose decoding raises, and `create_tickets`,
 * which routes each decoded message and calls `create_ticket`. Exceptions
 * that nothing catches end the loop they escape from.
 */
module Pipeline {
  import opened Wrappers
  import opened Routing
  import opened Mime
  import opened Tickets
  import opened Committer

  // ----------------------------------------------------------- collect_emails

  /** What `body` holds after message `raw`: a failed decoding leaves it as it was. */
  function After(raw: RawMessage, freshId: string, carried: Option<string>): Option<string>
  {
    match DecodeMessage(raw, freshId, carried)
    case Success(d) => d.body
    case Failure(_) => carried
  }

  /**
   * `collect_emails` as written, from message `i` on with `body` holding
   * `carried`. A message whose decoding raises is skipped by the handler,
   * except when the `To` header itself raised: `post` then has no `'to'`
   * key, so `print(post['to'])` in the handler raises a KeyError that ends
   * the whole loop and returns nothing. The result is that failure,
   * carrying the index of the message. `uuids(i)` stands for the uuid
   * generated for message `i`.
   */
  function CollectAsWritten(raws: seq<RawMessage>, uuids: nat -> string, i: nat, carried: Option<string>): (r: Result<seq<Post>, nat>)
    requires i <= |raws|
    ensures r.Failure? ==> i <= r.error < |raws| && ToUndecodable(raws, r.error)
    ensures r.Failure? ==> forall j :: i <= j < r.error ==> !ToUndecodable(raws, j)
    ensures r.Success? ==> |r.value| <= |raws| - i
    decreases |raws| - i
  {
    if i == |raws| then Success([])
    else
      match DecodeMessage(raws[i], uuids(i), carried)
      case Failure(HeaderUndecodable(ToHeader)) => Failure(i)
      case Failure(_) => CollectAsWritten(raws, uuids, i + 1, carried)
      case Success(d) =>
        var rest :- CollectAsWritten(raws, uuids, i + 1, d.body);
        Success([d.post] + rest)
  }

  /** `collect_emails` as intended: every message whose decoding raises is skipped, and only that message. */
  function Collect(raws: seq<RawMessage>, uuids: nat -> string, i: nat, carried: Option<string>): (posts: seq<Post>)
    requires i <= |raws|
    ensures |posts| <= |raws| - i
    decreases |raws| - i
  {
    if i == |raws| then []
    else
      match DecodeMessage(raws[i], uuids(i), carried)
      case Failure(_) => Collect(raws, uuids, i + 1, carried)
      case Success(d) => [d.post] + Collect(raws, uuids, i + 1, d.body)
  }

  /** What `body` holds when message `j` is reached, starting at message `i` with `carried`. */
  function CarriedInto(raws: seq<RawMessage>, uuids: nat -> string, i: nat, j: nat, carried: Option<string>): Option<string>
    requires i <= j <= |raws|
    decreases j - i
  {
    if i == j then carried else CarriedInto(raws, uuids, i + 1, j, After(raws[i], uuids(i), carried))
  }

  /** Message `j` decodes, with `body` as the messages from `i` on left it. */
  predicate DecodesAt(raws: seq<RawMessage>, uuids: nat -> string, i: nat, j: nat, carried: Option<string>)
    requires i <= j < |raws|
  {
    DecodeMessage(raws[j], uuids(j), CarriedInto(raws, uuids, i, j, carried)).Success?
  }

  /** The indices of the messages from `i` on that decode, in increasing order. */
  function DecodablePositions(raws: seq<RawMessage>, uuids: nat -> string, i: nat, carried: Option<string>): (idx: seq<nat>)
    requires i <= |raws|
    ensures forall k :: 0 <= k < |idx| ==> i <= idx[k] < |raws| && DecodesAt(raws, uuids, i, idx[k], carried)
    ensures forall k, l :: 0 <= k < l < |idx| ==> idx[k] < idx[l]
    ensures forall j :: i <= j < |raws| && DecodesAt(raws, uuids, i, j, carried) ==> j in idx
    decreases |raws| - i
  {
    if i == |raws| then []
    else
      var rest := DecodablePositions(raws, uuids, i + 1, After(raws[i], uuids(i), carried));
      if DecodeMessage(raws[i], uuids(i), carried).Success? then [i] + rest else rest
  }

  /** The decoded post of message `j`, which must decode. */
  function PostAt(raws: seq<RawMessage>, uuids: nat -> string, i: nat, j: nat, carried: Option<string>): Post
    requires i <= j < |raws| && DecodesAt(raws, uuids, i, j, carried)
  {
    DecodeMessage(raws[j], uuids(j), CarriedInto(raws, uuids, i, j, carried)).value.post
  }

  /** Putting one element in front of both sequences shifts their matching positions by one. */
  lemma Shifted<T>(i: nat, rest: seq<nat>, x: T, later: seq<T>)
    ensures forall k :: 1 <= k <= |rest| ==> ([i] + rest)[k] == rest[k - 1]
    ensures forall k :: 1 <= k <= |later| ==> ([x] + later)[k] == later[k - 1]
  {
  }

  /** The posts `posts` are, in order, the decodings of the messages at `idx`, reached from message `i` with `carried`. */
  predicate PostsAt(raws: seq<RawMessage>, uuids: nat -> string, i: nat, carried: Option<string>, idx: seq<nat>, posts: seq<Post>)
    requires forall k :: 0 <= k < |idx| ==> i <= idx[k] < |raws| && DecodesAt(raws, uuids, i, idx[k], carried)
  {
    |posts| == |idx| && forall k :: 0 <= k < |idx| ==> posts[k] == PostAt(raws, uuids, i, idx[k], carried)
  }

  /** Decodings reached from message `i + 1` are the same when reached from message `i`, whose decoding leaves `body` for them. */
  lemma PostsFromNext(raws: seq<RawMessage>, uuids: nat -> string, i: nat, carried: Option<string>, idx: seq<nat>, posts: seq<Post>)
    requires i < |raws|
    requires var next := After(raws[i], uuids(i), carried);
      && (forall k :: 0 <= k < |idx| ==> i + 1 <= idx[k] < |raws| && DecodesAt(raws, uuids, i + 1, idx[k], next))
      && PostsAt(raws, uuids, i + 1, next, idx, posts)
    ensures forall k :: 0 <= k < |idx| ==> DecodesAt(raws, uuids, i, idx[k], carried)
    ensures PostsAt(raws, uuids, i, carried, idx, posts)
  {
    var next := After(raws[i], uuids(i), carried);
    forall j | i + 1 <= j < |raws|
      ensures CarriedInto(raws, uuids, i, j, carried) == CarriedInto(raws, uuids, i + 1, j, next)
    {
    }
  }

  /** The step of `CollectInOrder` at a message that decodes. */
  lemma CollectInOrderDecoded(raws: seq<RawMessage>, uuids: nat -> string, i: nat, carried: Option<string>)
    requires i < |raws| && DecodeMessage(raws[i], uuids(i), carried).Success?
    requires var next := After(raws[i], uuids(i), carried);
      PostsAt(raws, uuids, i + 1, next, DecodablePositions(raws, uuids, i + 1, next), Collect(raws, uuids, i + 1, next))
    ensures PostsAt(raws, uuids, i, carried, DecodablePositions(raws, uuids, i, carried), Collect(raws, uuids, i, carried))
  {
    var next := After(raws[i], uuids(i), carried);
    var first := PostAt(raws, uuids, i, i, carried);
    var rest := DecodablePositions(raws, uuids, i + 1, next);
    var later := Collect(raws, uuids, i + 1, next);
    assert DecodablePositions(raws, uuids, i, carried) == [i] + rest;
    assert Collect(raws, uuids, i, carried) == [first] + later;
    PostsFromNext(raws, uuids, i, carried, rest, later);
    Shifted(i, rest, first, later);
  }

  /** The step of `CollectInOrder` at a message that does not decode. */
  lemma CollectInOrderSkipped(raws: seq<RawMessage>, uuids: nat -> string, i: nat, carried: Option<string>)
    requires i < |raws| && DecodeMessage(raws[i], uuids(i), carried).Failure?
    requires var next := After(raws[i], uuids(i), carried);
      PostsAt(raws, uuids, i + 1, next, DecodablePositions(raws, uuids, i + 1, next), Collect(raws, uuids, i + 1, next))
    ensures PostsAt(raws, uuids, i, carried, DecodablePositions(raws, uuids, i, carried), Collect(raws, uuids, i, carried))
  {
    var next := After(raws[i], uuids(i), carried);
    PostsFromNext(raws, uuids, i, carried, DecodablePositions(raws, uuids, i + 1, next), Collect(raws, uuids, i + 1, next));
  }

  /**
   * The intended loop delivers, in fetch order and once each, the decoding of
   * every message that decodes and of no other.
   */
  lemma {:induction false} CollectInOrder(raws: seq<RawMessage>, uuids: nat -> string, i: nat, carried: Option<string>)
    requires i <= |raws|
    ensures PostsAt(raws, uuids, i, carried, DecodablePositions(raws, uuids, i, carried), Collect(raws, uuids, i, carried))
    decreases |raws| - i
  {
    if i < |raws| {
      CollectInOrder(raws, uuids, i + 1, After(raws[i], uuids(i), carried));
      if DecodeMessage(raws[i], uuids(i), carried).Success? {
        CollectInOrderDecoded(raws, uuids, i, carried);
      } else {
        CollectInOrderSkipped(raws, uuids, i, carried);
      }
    }
  }

  predicate ToUndecodable(raws: seq<RawMessage>, j: nat)
    requires j < |raws|
  {
    DecodeHeader(raws[j].to).Failure?
  }

  /**
   * The handler bug: the loop as written delivers anything at all only when
   * no message has an undecodable `To` header, and then delivers what the
   * intended loop delivers.
   */
  lemma {:induction false} CollectAsWrittenCrashes(raws: seq<RawMessage>, uuids: nat -> string, i: nat, carried: Option<string>)
    requires i <= |raws|
    ensures CollectAsWritten(raws, uuids, i, carried).Success? <==> forall j :: i <= j < |raws| ==> !ToUndecodable(raws, j)
    ensures CollectAsWritten(raws, uuids, i, carried).Success? ==>
      CollectAsWritten(raws, uuids, i, carried).value == Collect(raws, uuids, i, carried)
    decreases |raws| - i
  {
    if i < |raws| {
      var next := After(raws[i], uuids(i), carried);
      CollectAsWrittenCrashes(raws, uuids, i + 1, next);
      assert (forall j :: i <= j < |raws| ==> !ToUndecodable(raws, j)) <==>
        !ToUndecodable(raws, i) && forall j :: i + 1 <= j < |raws| ==> !ToUndecodable(raws, j);
    }
  }

  /** In the intended loop a message that decodes, with `body` as the earlier messages left it, is delivered. */
  lemma {:induction false} CollectKeepsDecodable(raws: seq<RawMessage>, uuids: nat -> string, i: nat, j: nat, carried: Option<string>)
    requires i <= j < |raws|
    requires DecodeMessage(raws[j], uuids(j), CarriedInto(raws, uuids, i, j, carried)).Success?
    ensures DecodeMessage(raws[j], uuids(j), CarriedInto(raws, uuids, i, j, carried)).value.post in Collect(raws, uuids, i, carried)
    decreases j - i
  {
    if i < j {
      CollectKeepsDecodable(raws, uuids, i + 1, j, After(raws[i], uuids(i), carried));
    }
  }

  /** Every post the intended loop delivers is the decoding of one of the messages. */
  lemma {:induction false} CollectOnlyDecoded(raws: seq<RawMessage>, uuids: nat -> string, i: nat, carried: Option<string>, post: Post)
    requires i <= |raws|
    requires post in Collect(raws, uuids, i, carried)
    ensures exists j :: i <= j < |raws| && DecodeMessage(raws[j], uuids(j), CarriedInto(raws, uuids, i, j, carried)) == Success(Decoded(post, After(raws[j], uuids(j), CarriedInto(raws, uuids, i, j, carried))))
    decreases |raws| - i
  {
    var r := DecodeMessage(raws[i], uuids(i), carried);
    if r.Success? && r.value.post == post {
      assert CarriedInto(raws, uuids, i, i, carried) == carried;
    } else {
      var next := After(raws[i], uuids(i), carried);
      CollectOnlyDecoded(raws, uuids, i + 1, next, post);
      var j :| i + 1 <= j < |raws| && DecodeMessage(raws[j], uuids(j), CarriedInto(raws, uuids, i + 1, j, next)) == Success(Decoded(post, After(raws[j], uuids(j), CarriedInto(raws, uuids, i + 1, j, next))));
      assert CarriedInto(raws, uuids, i, j, carried) == CarriedInto(raws, uuids, i + 1, j, next);
    }
  }

  /** A message with a `To` header whose first encoded word names a charset Python does not know. */
  const BadTo := RawMessage("1", Present("=?x-unknown?q?abc?= <a@b.c>", Segment(None), []),
    Absent, Absent, Absent, Absent, "", Flat(Part("text/plain", None, None, Some([]), Some(""))))

  /** A well-formed plain-text message. */
  const Good := RawMessage("2", Present("a@b.c", Segment(Some("a@b.c")), []),
    Absent, Absent, Absent, Absent, "", Flat(Part("text/plain", None, None, Some([]), Some(""))))

  /** The counterexample: one bad `To` header loses the good message after it; the intended loop keeps it. */
  lemma CollectCounterexample(uuids: nat -> string)
    ensures CollectAsWritten([BadTo, Good], uuids, 0, None).Failure?
    ensures DecodeMessage(Good, uuids(1), None).Success?
    ensures |Collect([BadTo, Good], uuids, 0, None)| == 1
  {
    assert DecodeMessage(BadTo, uuids(0), None) == Failure(HeaderUndecodable(ToHeader));
  }

  /** A single-part message whose plain-text body decodes. */
  const First := RawMessage("3", Present("a@b.c", Segment(Some("a@b.c")), []),
    Absent, Absent, Absent, Absent, "", Flat(Part("text/plain", None, None, Some([]), Some("first body"))))

  /** A multipart message whose only plain-text part does not decode. */
  const Second := RawMessage("4", Present("a@b.c", Segment(Some("a@b.c")), []),
    Absent, Absent, Absent, Absent, "", Multipart([Part("text/plain", None, None, Some([]), None)]))

  /** `body` is not reset between messages: the second message's text is the first message's body. */
  lemma CollectCarriesBody(uuids: nat -> string)
    ensures var posts := Collect([First, Second], uuids, 0, None);
      && |posts| == 2
      && posts[0].eId == First.eId && posts[1].eId == Second.eId
      && posts[1].text == "first body"
  {
    var raws := [First, Second];
    assert DecodeMessage(First, uuids(0), None).value.body == Some("first body");
    BodyCarried("first body");
    assert Collect(raws, uuids, 1, Some("first body")) == [DecodeMessage(Second, uuids(1), Some("first body")).value.post];
  }

  // ----------------------------------------------------------- create_tickets

  /** The tracking service's answers for one run; `answer(i)(k)` is its answer to upload `k` of message `i`. */
  datatype Service = Service(
    bySlug: string -> Option<Project>,
    listing: seq<Listed>,
    assignee: string,
    answer: nat -> nat -> UploadOutcome)

  /** The exception that ended `create_tickets` early, with the index of the message. */
  datatype Abort =
    | RouteFailed(index: nat, error: RouteError)
    | TicketRaised(index: nat)

  datatype BatchRun = BatchRun(runs: seq<TicketRun>, aborted: Option<Abort>)

  predicate Raises(run: TicketRun) {
    run.outcome.EnumerationMissing? || run.outcome.AttachmentRaised?
  }

  /**
   * `create_ticket` as the loop calls it: on a post, its index in the batch
   * and the slug routed from its `To` header. The loop and its lemmas are
   * stated for any such function; only whether a run raises matters to them.
   */
  type Ticketing = (Post, nat, string) -> TicketRun

  /** `create_ticket` against the tracking service `svc`. */
  function TicketsFor(svc: Service): Ticketing
  {
    (post: Post, k: nat, slug: string) => CreateTicket(slug, post, svc.bySlug(slug), svc.listing, svc.assignee, svc.answer(k))
  }

  /** `create_tickets` from message `i` on. */
  function CreateTicketsFrom(posts: seq<Post>, ticket: Ticketing, i: nat): (b: BatchRun)
    requires i <= |posts|
    ensures |b.runs| <= |posts| - i
    ensures b.aborted.Some? ==> i <= b.aborted.value.index < |posts|
    ensures b.aborted.None? ==> forall k :: i <= k < |posts| ==> RecipientSlug(posts[k].to).Success?
    ensures forall j :: 0 <= j < |b.runs| && Raises(b.runs[j]) ==> j == |b.runs| - 1 && b.aborted == Some(TicketRaised(i + j))
    decreases |posts| - i
  {
    if i == |posts| then BatchRun([], None)
    else
      match RecipientSlug(posts[i].to)
      case Failure(e) => BatchRun([], Some(RouteFailed(i, e)))
      case Success(slug) =>
        var run := ticket(posts[i], i, slug);
        if Raises(run) then BatchRun([run], Some(TicketRaised(i)))
        else
          var rest := CreateTicketsFrom(posts, ticket, i + 1);
          var runs := [run] + rest.runs;
          assert runs[1..] == rest.runs;
          BatchRun(runs, rest.aborted)
  }

  /** The run `create_tickets` makes for message `k`, or None when routing its `To` header raises. */
  function RunFor(posts: seq<Post>, ticket: Ticketing, k: nat): Option<TicketRun>
    requires k < |posts|
  {
    match RecipientSlug(posts[k].to)
    case Failure(_) => None
    case Success(slug) => Some(ticket(posts[k], k, slug))
  }

  /**
   * `create_tickets` stops at the first message that raises: without an
   * abort every message from `i` has its run; with one, exactly the messages
   * before it do, plus the raising message itself when it got as far as
   * `create_ticket`; and a run raises exactly when it is the last one and
   * the batch was aborted at its message.
   */
  lemma {:induction false} CreateTicketsStopsAtFirstRaise(posts: seq<Post>, ticket: Ticketing, i: nat)
    requires i <= |posts|
    ensures var b := CreateTicketsFrom(posts, ticket, i);
      && (b.aborted.None? ==> |b.runs| == |posts| - i)
      && (b.aborted.Some? && b.aborted.value.RouteFailed? ==>
            && i <= b.aborted.value.index < |posts|
            && |b.runs| == b.aborted.value.index - i
            && RecipientSlug(posts[b.aborted.value.index].to) == Failure(b.aborted.value.error))
      && (b.aborted.Some? && b.aborted.value.TicketRaised? ==>
            && i <= b.aborted.value.index < |posts|
            && |b.runs| == b.aborted.value.index - i + 1
            && Raises(b.runs[|b.runs| - 1]))
    ensures var b := CreateTicketsFrom(posts, ticket, i);
      forall j :: 0 <= j < |b.runs| ==>
        (Raises(b.runs[j]) <==> j == |b.runs| - 1 && b.aborted == Some(TicketRaised(i + j)))
    decreases |posts| - i
  {
    var b := CreateTicketsFrom(posts, ticket, i);
    if i < |posts| {
      match RecipientSlug(posts[i].to)
      case Failure(e) =>
        assert b == BatchRun([], Some(RouteFailed(i, e)));
      case Success(slug) =>
        var run := ticket(posts[i], i, slug);
        if Raises(run) {
          assert b == BatchRun([run], Some(TicketRaised(i)));
        } else {
          CreateTicketsStopsAtFirstRaise(posts, ticket, i + 1);
          var rest := CreateTicketsFrom(posts, ticket, i + 1);
          assert b == BatchRun([run] + rest.runs, rest.aborted);
        }
    }
  }

  /** `runs` are, in order, the runs `expected` gives from index `i` on. */
  predicate Follows(expected: nat -> Option<TicketRun>, i: nat, runs: seq<TicketRun>)
    decreases |runs|
  {
    runs == [] || (expected(i) == Some(runs[0]) && Follows(expected, i + 1, runs[1..]))
  }

  /** Read off one position: run `j` of a following sequence is what `expected` gives at `i + j`. */
  lemma {:induction false} FollowsAt(expected: nat -> Option<TicketRun>, i: nat, runs: seq<TicketRun>, j: nat)
    requires Follows(expected, i, runs) && j < |runs|
    ensures expected(i + j) == Some(runs[j])
    decreases j
  {
    if j > 0 {
      FollowsAt(expected, i + 1, runs[1..], j - 1);
      assert runs[1..][j - 1] == runs[j];
    }
  }

  /** The run `create_tickets` makes for message `k`, as a total function of the index. */
  function Expected(posts: seq<Post>, ticket: Ticketing): nat -> Option<TicketRun>
  {
    (k: nat) => if k < |posts| then RunFor(posts, ticket, k) else None
  }

  /** `runs` are, in order, the runs `create_tickets` makes for the posts from index `i` on. */
  predicate RunsFollow(posts: seq<Post>, ticket: Ticketing, i: nat, runs: seq<TicketRun>)
  {
    Follows(Expected(posts, ticket), i, runs)
  }

  /** Read off one position: run `j` of a following sequence is the run for post `i + j`. */
  lemma RunsFollowAt(posts: seq<Post>, ticket: Ticketing, i: nat, runs: seq<TicketRun>, j: nat)
    requires RunsFollow(posts, ticket, i, runs) && j < |runs|
    ensures i + j < |posts| && RunFor(posts, ticket, i + j) == Some(runs[j])
  {
    FollowsAt(Expected(posts, ticket), i, runs, j);
  }

  /** A message that has a run was routed, and its run is `ticket` on it with the routed slug. */
  lemma RunForSome(posts: seq<Post>, ticket: Ticketing, k: nat, run: TicketRun)
    requires k < |posts| && RunFor(posts, ticket, k) == Some(run)
    ensures RecipientSlug(posts[k].to).Success?
    ensures run == ticket(posts[k], k, RecipientSlug(posts[k].to).value)
  {
  }

  /** The runs of `create_tickets` follow the posts in order: each is `create_ticket` on its post with the slug routed from its `To` header. */
  lemma {:induction false} CreateTicketsInOrder(posts: seq<Post>, ticket: Ticketing, i: nat)
    requires i <= |posts|
    ensures RunsFollow(posts, ticket, i, CreateTicketsFrom(posts, ticket, i).runs)
    decreases |posts| - i
  {
    var b := CreateTicketsFrom(posts, ticket, i);
    if i < |posts| && RecipientSlug(posts[i].to).Success? {
      var slug := RecipientSlug(posts[i].to).value;
      var run := ticket(posts[i], i, slug);
      assert RunFor(posts, ticket, i) == Some(run);
      assert Expected(posts, ticket)(i) == Some(run);
      if Raises(run) {
        assert b.runs == [run];
        assert b.runs[1..] == [];
      } else {
        CreateTicketsInOrder(posts, ticket, i + 1);
        var rest := CreateTicketsFrom(posts, ticket, i + 1);
        assert b.runs == [run] + rest.runs;
        assert b.runs[1..] == rest.runs;
      }
    } else {
      assert b.runs == [];
    }
  }

  /**
   * Which runs of `create_ticket` end `create_tickets`: those where the
   * project exists and either an enumeration is missing or the upload loop
   * stops on a file that cannot be written or on an error other than a
   * `TaigaRestException`. A caught rejection does not end the batch.
   */
  lemma TicketRaisesExactly(svc: Service, post: Post, k: nat, slug: string)
    ensures var run := TicketsFor(svc)(post, k, slug);
      var resolved := ResolveProject(slug, svc.bySlug(slug), svc.listing);
      var files := StagedFiles(post);
      var stop := StopIndex(files, svc.answer(k), 0);
      Raises(run) <==>
        && resolved.Some?
        && (|| ComposeIssue(post, resolved.value, svc.assignee).Failure?
            || (stop < |files| && (!files[stop].writable || svc.answer(k)(stop) == Raised)))
  {
    CreateTicketOutcome(slug, post, svc.bySlug(slug), svc.listing, svc.assignee, svc.answer(k));
  }

  /**
   * Message `j` of a batch against `svc` ends `create_tickets` with its own
   * exception exactly when its project exists and either an enumeration is
   * missing or its uploads stop on a file that cannot be written or on an
   * error other than a `TaigaRestException`.
   */
  lemma {:induction false} TicketEndsBatchExactly(svc: Service, posts: seq<Post>, j: nat)
    requires j < |CreateTicketsFrom(posts, TicketsFor(svc), 0).runs|
    ensures j < |posts| && RecipientSlug(posts[j].to).Success?
    ensures var b := CreateTicketsFrom(posts, TicketsFor(svc), 0);
      var slug := RecipientSlug(posts[j].to).value;
      var resolved := ResolveProject(slug, svc.bySlug(slug), svc.listing);
      var files := StagedFiles(posts[j]);
      var stop := StopIndex(files, svc.answer(j), 0);
      (j == |b.runs| - 1 && b.aborted == Some(TicketRaised(j))) <==>
        && resolved.Some?
        && (|| ComposeIssue(posts[j], resolved.value, svc.assignee).Failure?
            || (stop < |files| && (!files[stop].writable || svc.answer(j)(stop) == Raised)))
  {
    RunAt(posts, TicketsFor(svc), j);
    CreateTicketsStopsAtFirstRaise(posts, TicketsFor(svc), 0);
    TicketRaisesExactly(svc, posts[j], j, RecipientSlug(posts[j].to).value);
  }

  /** A run that ends with a caught rejection never ends the batch: any abort comes from a later message. */
  lemma RejectedRunContinues(posts: seq<Post>, ticket: Ticketing, j: nat)
    requires j < |CreateTicketsFrom(posts, ticket, 0).runs|
    requires CreateTicketsFrom(posts, ticket, 0).runs[j].outcome == AttachmentRejected
    ensures var b := CreateTicketsFrom(posts, ticket, 0);
      b.aborted.None? || b.aborted.value.index > j
  {
    CreateTicketsStopsAtFirstRaise(posts, ticket, 0);
  }

  /** Run `j` of a batch is `ticket` on post `j`, whose `To` header routed. */
  lemma {:induction false} RunAt(posts: seq<Post>, ticket: Ticketing, j: nat)
    requires j < |CreateTicketsFrom(posts, ticket, 0).runs|
    ensures j < |posts| && RecipientSlug(posts[j].to).Success?
    ensures CreateTicketsFrom(posts, ticket, 0).runs[j] == ticket(posts[j], j, RecipientSlug(posts[j].to).value)
  {
    var runs := CreateTicketsFrom(posts, ticket, 0).runs;
    CreateTicketsInOrder(posts, ticket, 0);
    RunsFollowAt(posts, ticket, 0, runs, j);
    RunForSome(posts, ticket, j, runs[j]);
  }

  /** A message is marked seen in a batch exactly when its own run committed. */
  lemma SeenInBatch(posts: seq<Post>, svc: Service, j: nat)
    requires j < |posts| && j < |CreateTicketsFrom(posts, TicketsFor(svc), 0).runs|
    ensures var run := CreateTicketsFrom(posts, TicketsFor(svc), 0).runs[j];
      MarkedSeen(posts[j].eId) in run.events <==> run.outcome == Committed
  {
    RunAt(posts, TicketsFor(svc), j);
    var slug := RecipientSlug(posts[j].to).value;
    SeenExactlyWhenCommitted(slug, posts[j], svc.bySlug(slug), svc.listing, svc.assignee, svc.answer(j));
  }

  /**
   * One run of the script: the intended `collect_emails`, then
   * `create_tickets` on what it delivered. No more tickets are attempted than
   * messages were fetched.
   */
  function Run(raws: seq<RawMessage>, uuids: nat -> string, svc: Service): (b: BatchRun)
    ensures |b.runs| <= |raws|
  {
    CreateTicketsFrom(Collect(raws, uuids, 0, None), TicketsFor(svc), 0)
  }

  /**
   * One run of the script as written: when any `To` header is undecodable,
   * the KeyError from `collect_emails` ends the script before
   * `create_tickets` is called, and no ticket is attempted at all; the error
   * carries the index of the first such message. Otherwise it is the run of
   * the corrected script.
   */
  function RunAsWritten(raws: seq<RawMessage>, uuids: nat -> string, svc: Service): (r: Result<BatchRun, nat>)
    ensures r.Failure? <==> exists j :: 0 <= j < |raws| && ToUndecodable(raws, j)
    ensures r.Failure? ==> r.error < |raws| && ToUndecodable(raws, r.error)
    ensures r.Success? ==> r.value == Run(raws, uuids, svc)
  {
    CollectAsWrittenCrashes(raws, uuids, 0, None);
    var posts :- CollectAsWritten(raws, uuids, 0, None);
    Success(CreateTicketsFrom(posts, TicketsFor(svc), 0))
  }

  /**
   * One message without attachments, routed to a project that offers the
   * four fixed names, whose upload is accepted: the issue is created,
   * `message.eml` is uploaded into the scratch directory, the directory is
   * removed and the message is marked seen.
   */
  lemma SingleMessageCommits(post: Post, svc: Service, slug: string, project: Project)
    requires RecipientSlug(post.to) == Success(slug) && svc.bySlug(slug) == Some(project)
    requires "High" in project.priorities && "New" in project.statuses
    requires "Bug" in project.issueTypes && "Minor" in project.severities
    requires post.attachments == [] && svc.answer(0)(0) == Accepted
    ensures var issue := Issue(post.subject, Description(post), "High", "New", "Bug", "Minor", svc.assignee);
      CreateTicketsFrom([post], TicketsFor(svc), 0) == BatchRun([TicketRun(Committed, [
        IssueCreated(issue), DirCreated(post.messageId),
        Uploaded("message.eml", "The original mail message"),
        DirRemoved(post.messageId), MarkedSeen(post.eId)])], None)
  {
    SingleFileCommit(slug, post, project, svc.assignee, svc.answer(0));
    assert CreateTicketsFrom([post], TicketsFor(svc), 1) == BatchRun([], None);
  }

  /**
   * A message without attachments to `Support Desk <support@example.com>`,
   * where the service knows a project `support` offering the four fixed names
   * and accepts the upload: it is routed to `support`, and its issue is
   * created there and committed with the full trace.
   */
  lemma SupportScenario(post: Post, svc: Service)
    requires post.to == Some("Support Desk <support@example.com>") && post.attachments == []
    requires svc.bySlug("support") == Some(Project("support", ["High"], ["New"], ["Bug"], ["Minor"]))
    requires svc.answer(0)(0) == Accepted
    ensures RecipientSlug(post.to) == Success("support")
    ensures var issue := Issue(post.subject, Description(post), "High", "New", "Bug", "Minor", svc.assignee);
      CreateTicketsFrom([post], TicketsFor(svc), 0) == BatchRun([TicketRun(Committed, [
        IssueCreated(issue), DirCreated(post.messageId),
        Uploaded("message.eml", "The original mail message"),
        DirRemoved(post.messageId), MarkedSeen(post.eId)])], None)
  {
    RouteExample();
    SingleMessageCommits(post, svc, "support", Project("support", ["High"], ["New"], ["Bug"], ["Minor"]));
  }
}

=== FILE: routing.dfy ===
/**
 * Recipient routing in `create_tickets`: the `To` header is cut down to the
 * address between the first `<` and the next `>` (or used whole when it has
 * no `<`), and the part before the first `@` is slugified. Python's
 * `str.index` raises when the character is missing and `'<' in None` raises
 * when the header is absent; nothing catches either, so they are errors here.
 */
module Routing {
  import opened Wrappers
  import opened Sequences
  import opened Slugs

  datatype RouteError =
    | NoRecipient     // the `To` header decoded to None
    | UnclosedBracket // a `<` with no `>` after it
    | NoAtSign        // the address has no `@`

  /** The bare address: the text between the first `<` and the next `>`, or the whole string when there is no `<`. */
  function BareAddress(to: string): (r: Result<string, RouteError>)
    ensures '<' !in to ==> r == Success(to)
    ensures r.Failure? ==> r.error == UnclosedBracket && '<' in to
    ensures r.Success? && '<' in to ==> '>' !in r.value && |r.value| < |to|
  {
    match IndexOf(to, '<')
    case None => Success(to)
    case Some(open) =>
      var tail := to[open + 1..];
      match IndexOf(tail, '>')
      case None => Failure(UnclosedBracket)
      case Some(close) => Success(tail[..close])
  }

  /** The local part: the text before the first `@`. */
  function LocalPart(address: string): (r: Result<string, RouteError>)
    ensures r.Failure? <==> '@' !in address
    ensures r.Failure? ==> r.error == NoAtSign
    ensures r.Success? ==>
      && |r.value| < |address|
      && address[..|r.value|] == r.value
      && address[|r.value|] == '@'
      && '@' !in r.value
  {
    match IndexOf(address, '@')
    case None => Failure(NoAtSign)
    case Some(at) => Success(address[..at])
  }

  /** The project slug `create_tickets` derives from a decoded `To` header. */
  function RecipientSlug(to: Option<string>): (r: Result<string, RouteError>)
    ensures to.None? ==> r == Failure(NoRecipient)
    ensures r.Success? ==> NoUpper(r.value)
  {
    match to
    case None => Failure(NoRecipient)
    case Some(header) =>
      var address :- BareAddress(header);
      var local :- LocalPart(address);
      Success(CamelCaseToSlug(local))
  }

  /**
   * Routing of any present header: it fails exactly when the bare address
   * cannot be cut out or has no `@`, and otherwise gives the slug of the
   * text before the first `@`.
   */
  lemma RecipientSlugOfPresent(header: string)
    ensures BareAddress(header).Failure? ==> RecipientSlug(Some(header)) == Failure(UnclosedBracket)
    ensures BareAddress(header).Success? ==>
      var address := BareAddress(header).value;
      && (RecipientSlug(Some(header)) == Failure(NoAtSign) <==> '@' !in address)
      && ('@' in address ==> RecipientSlug(Some(header)) == Success(CamelCaseToSlug(address[..IndexOf(address, '@').value])))
  {
  }

  /** A string without `<` is its own bare address. */
  lemma BareAddressOfPlain(address: string)
    requires '<' !in address
    ensures BareAddress(address) == Success(address)
  {
  }

  /** `Display <address>rest` yields exactly `address`, whatever follows the `>`. */
  lemma BareAddressOfBracketed(display: string, address: string, rest: string)
    requires '<' !in display && '>' !in address
    ensures BareAddress(display + "<" + address + ">" + rest) == Success(address)
  {
    var to := display + "<" + address + ">" + rest;
    IndexOfAfterPrefix(display, '<', address + ">" + rest);
    assert to == display + ['<'] + (address + ">" + rest);
    var tail := to[|display| + 1..];
    assert tail == address + ['>'] + rest;
    IndexOfAfterPrefix(address, '>', rest);
    assert tail[..|address|] == address;
  }

  /** Extraction fails exactly when the header is missing a `>` after its first `<`. */
  lemma BareAddressFails(to: string)
    ensures BareAddress(to).Failure? <==> ('<' in to && '>' !in to[IndexOf(to, '<').value + 1..])
    ensures BareAddress(to).Failure? ==> BareAddress(to).error == UnclosedBracket
  {
  }

  /** `local@domain` yields `local` when `local` has no `@`. */
  lemma LocalPartOf(local: string, domain: string)
    requires '@' !in local
    ensures LocalPart(local + "@" + domain) == Success(local)
  {
    IndexOfAfterPrefix(local, '@', domain);
    assert (local + "@" + domain)[..|local|] == local;
  }

  /** Routing of `Display <local@domain>`: the slug of `local`. */
  lemma RouteBracketed(display: string, local: string, domain: string, rest: string)
    requires '<' !in display && '@' !in local && '>' !in local && '>' !in domain
    ensures RecipientSlug(Some(display + "<" + local + "@" + domain + ">" + rest)) == Success(CamelCaseToSlug(local))
  {
    var opening := display + "<";
    assert '>' !in local + "@" + domain;
    BareAddressOfBracketed(display, local + "@" + domain, rest);
    Associative(local, "@", domain);
    Associative(opening, local, "@" + domain);
    Associative(opening + local, "@", domain);
    LocalPartOf(local, domain);
  }

  /** Routing of a bare `local@domain`: the slug of `local`. */
  lemma RouteBare(local: string, domain: string)
    requires '<' !in local && '<' !in domain && '@' !in local
    ensures RecipientSlug(Some(local + "@" + domain)) == Success(CamelCaseToSlug(local))
  {
    BareAddressOfPlain(local + "@" + domain);
    LocalPartOf(local, domain);
  }

  /** A recipient with a display name: `Support Desk <support@example.com>` routes to `support`. */
  lemma RouteExample()
    ensures RecipientSlug(Some("Support Desk <support@example.com>")) == Success("support")
  {
    assert "Support Desk <support@example.com>" == "Support Desk " + "<" + "support" + "@" + "example.com" + ">" + "";
    RouteBracketed("Support Desk ", "support", "example.com", "");
    SupportIsOwnSlug();
  }

  lemma SupportIsOwnSlug()
    ensures CamelCaseToSlug("support") == "support"
  {
    SlugFixesLowercase("support");
  }
}

=== FILE: sequences.dfy ===
/** Generic sequence helpers shared by the other modules. */
module Sequences {
  import opened Wrappers

  /** Concatenation regroups freely. */
  lemma Associative<T>(a: seq<T>, b: seq<T>, c: seq<T>)
    ensures a + (b + c) == (a + b) + c
  {
  }

  /** The last index whose element satisfies `P`. */
  function LastIndex<T>(s: seq<T>, P: T -> bool): (r: Option<nat>)
    ensures r.None? <==> forall i :: 0 <= i < |s| ==> !P(s[i])
    ensures r.Some? ==> r.value < |s| && P(s[r.value]) && forall j :: r.value < j < |s| ==> !P(s[j])
    decreases |s|
  {
    if s == [] then None
    else if P(s[|s| - 1]) then Some(|s| - 1)
    else LastIndex(s[..|s| - 1], P)
  }

  /** Putting an element in front shifts the last match by one, or makes the new element the match when there was none. */
  lemma LastIndexCons<T>(x: T, s: seq<T>, P: T -> bool)
    ensures LastIndex([x] + s, P) ==
      match LastIndex(s, P)
      case Some(i) => Some(i + 1)
      case None => if P(x) then Some(0) else None
  {
    var xs := [x] + s;
    var r := LastIndex(xs, P);
    match LastIndex(s, P)
    case Some(i) =>
      assert xs[i + 1] == s[i];
      forall j | i + 1 < j < |xs|
        ensures !P(xs[j])
      {
        assert xs[j] == s[j - 1];
      }
    case None =>
      assert xs[0] == x;
      forall j | 0 < j < |xs|
        ensures !P(xs[j])
      {
        assert xs[j] == s[j - 1];
      }
  }

  /** The first index holding `c` (Python's `s.index(c)`), or None where Python raises. */
  function IndexOf<T(==)>(s: seq<T>, c: T): (r: Option<nat>)
    ensures r.None? <==> c !in s
    ensures r.Some? ==> r.value < |s| && s[r.value] == c && c !in s[..r.value]
  {
    if |s| == 0 then None
    else if s[0] == c then Some(0)
    else match IndexOf(s[1..], c)
      case None => None
      case Some(k) =>
        assert s[..k + 1] == [s[0]] + s[1..][..k];
        Some(k + 1)
  }

  /** `IndexOf` finds an element placed right after a prefix that does not contain it. */
  lemma IndexOfAfterPrefix<T>(prefix: seq<T>, c: T, rest: seq<T>)
    requires c !in prefix
    ensures IndexOf(prefix + [c] + rest, c) == Some(|prefix|)
  {
    var s := prefix + [c] + rest;
    assert s[|prefix|] == c;
    assert s[..|prefix|] == prefix;
  }
}

=== FILE: slugs.dfy ===
/**
 * Slug derivation: `camel_case_to_slug`, which rewrites the regular expression
 * `(?!^)([A-Z]+)` to `-\1` and then lowercases the result.
 *
 * `Substitute` follows the regular-expression scan literally; `Hyphenate` is an
 * independent position rule, and `SlugIsPositionRule` proves the two agree.
 * Lowercasing is modelled for ASCII only.
 */
module Slugs {
  import opened Sequences

  predicate IsUpper(c: char) {
    'A' <= c <= 'Z'
  }

  /** ASCII lowercasing of one character. */
  function ToLower(c: char): (r: char)
    ensures !IsUpper(r)
    ensures !IsUpper(c) ==> r == c
    ensures IsUpper(c) ==> 'a' <= r <= 'z' && r as int == c as int + 32
  {
    if IsUpper(c) then (c as int + 32) as char else c
  }

  /** ASCII lowercasing of a whole string, character by character. */
  function LowerAll(s: string): (r: string)
    ensures |r| == |s|
    ensures forall i :: 0 <= i < |s| ==> r[i] == ToLower(s[i])
  {
    seq(|s|, i requires 0 <= i < |s| => ToLower(s[i]))
  }

  predicate NoUpper(s: string) {
    forall i :: 0 <= i < |s| ==> !IsUpper(s[i])
  }

  /** Length of the maximal run of A-Z characters starting at index `i`: what `[A-Z]+` matches greedily. */
  function UpperRun(s: string, i: nat): (n: nat)
    requires i <= |s|
    ensures i + n <= |s|
    ensures i + n < |s| ==> !IsUpper(s[i + n])
    ensures i < |s| && IsUpper(s[i]) ==> n >= 1
    decreases |s| - i
  {
    if i < |s| && IsUpper(s[i]) then 1 + UpperRun(s, i + 1) else 0
  }

  /** Every character of the run is a capital. */
  lemma {:induction false} UpperRunCapitals(s: string, i: nat)
    requires i <= |s|
    ensures forall k :: i <= k < i + UpperRun(s, i) ==> IsUpper(s[k])
    decreases |s| - i
  {
    if i < |s| && IsUpper(s[i]) {
      UpperRunCapitals(s, i + 1);
    }
  }

  /** The replacement `-\1` for the run of capitals matched at index `i`. */
  function Replacement(s: string, i: nat): string
    requires i <= |s|
  {
    ['-'] + s[i..i + UpperRun(s, i)]
  }

  /**
   * The output of `re.sub('(?!^)([A-Z]+)', r'-\1', s)` for the part of `s`
   * from index `i` on, with the scanner standing at `i`: a match is tried at
   * every index except 0, it takes the whole run of capitals, and the scan
   * resumes after the run.
   */
  function Substitute(s: string, i: nat): string
    requires i <= |s|
    decreases |s| - i
  {
    if i == |s| then []
    else if i > 0 && IsUpper(s[i]) then Replacement(s, i) + Substitute(s, i + UpperRun(s, i))
    else [s[i]] + Substitute(s, i + 1)
  }

  /** `camel_case_to_slug(name)`. */
  function CamelCaseToSlug(name: string): (slug: string)
    ensures NoUpper(slug)
    ensures |name| > 0 ==> |slug| > 0 && slug[0] == ToLower(name[0])
  {
    LowerAll(Substitute(name, 0))
  }

  /** The position rule: a hyphen is inserted before index `i`. */
  predicate HyphenBefore(s: string, i: int) {
    1 <= i < |s| && IsUpper(s[i]) && (i == 1 || !IsUpper(s[i - 1]))
  }

  /** Reference definition: `s` from index `i` on, each character preceded by a hyphen where the position rule says so. */
  function Hyphenate(s: string, i: nat): string
    requires i <= |s|
    decreases |s| - i
  {
    if i == |s| then []
    else if HyphenBefore(s, i) then ['-', s[i]] + Hyphenate(s, i + 1)
    else [s[i]] + Hyphenate(s, i + 1)
  }

  /** Number of indices from `i` on where the position rule inserts a hyphen. */
  function HyphenCount(s: string, i: nat): nat
    requires i <= |s|
    decreases |s| - i
  {
    if i == |s| then 0
    else (if HyphenBefore(s, i) then 1 else 0) + HyphenCount(s, i + 1)
  }

  /** Where no hyphen is due, `Hyphenate` copies the characters unchanged. */
  lemma {:induction false} HyphenateCopies(s: string, i: nat, j: nat)
    requires i <= j <= |s|
    requires forall k :: i <= k < j ==> !HyphenBefore(s, k)
    ensures Hyphenate(s, i) == s[i..j] + Hyphenate(s, j)
    decreases j - i
  {
    if i < j {
      assert !HyphenBefore(s, i);
      assert Hyphenate(s, i) == [s[i]] + Hyphenate(s, i + 1);
      HyphenateCopies(s, i + 1, j);
      assert s[i..j] == [s[i]] + s[i + 1..j];
      Associative([s[i]], s[i + 1..j], Hyphenate(s, j));
    } else {
      assert s[i..j] == [];
    }
  }

  /** Regrouping a hyphenated run: `-x` then `t` then `h` is the replacement `-xt` then `h`. */
  lemma Regroup(whole: string, rest: string, replacement: string, x: char, t: string, h: string)
    requires whole == ['-', x] + rest
    requires rest == t + h
    requires replacement == ['-'] + ([x] + t)
    ensures whole == replacement + h
  {
    assert ['-', x] + (t + h) == (['-'] + ([x] + t)) + h;
  }

  /** The replacement for a run is a hyphen, the run's first capital, then the rest of the run. */
  lemma ReplacementSplit(s: string, i: nat)
    requires i < |s| && IsUpper(s[i])
    ensures Replacement(s, i) == ['-'] + ([s[i]] + s[i + 1..i + UpperRun(s, i)])
  {
    var n := UpperRun(s, i);
    assert s[i..i + n] == [s[i]] + s[i + 1..i + n];
  }

  /**
   * Inside a run of capitals that ends at `e`, past index 1, the position
   * rule copies the rest of the run unchanged.
   */
  lemma {:induction false} CopyRun(s: string, k: nat, e: nat)
    requires 2 <= k <= e <= |s| && IsUpper(s[k - 1]) && e == k + UpperRun(s, k)
    ensures Hyphenate(s, k) == s[k..e] + Hyphenate(s, e)
    decreases e - k
  {
    if k < e {
      assert IsUpper(s[k]) && e == k + 1 + UpperRun(s, k + 1);
      CopyRun(s, k + 1, e);
      assert !HyphenBefore(s, k);
      assert Hyphenate(s, k) == [s[k]] + Hyphenate(s, k + 1);
      assert s[k..e] == [s[k]] + s[k + 1..e];
      Associative([s[k]], s[k + 1..e], Hyphenate(s, e));
    } else {
      assert s[k..e] == [];
    }
  }

  /** At a hyphen position the position rule emits a hyphen and the character. */
  lemma HyphenateAtHyphen(s: string, i: nat)
    requires i < |s| && HyphenBefore(s, i)
    ensures Hyphenate(s, i) == ['-', s[i]] + Hyphenate(s, i + 1)
  {
  }

  /** A run of capitals starting at a hyphen position and ending at `e` gets one hyphen in front and none inside. */
  lemma HyphenateRun(s: string, i: nat, e: nat)
    requires 0 < i < |s| && IsUpper(s[i])
    requires i == 1 || !IsUpper(s[i - 1])
    requires e == i + UpperRun(s, i)
    ensures Hyphenate(s, i) == Replacement(s, i) + Hyphenate(s, e)
  {
    assert HyphenBefore(s, i);
    HyphenateAtHyphen(s, i);
    CopyRun(s, i + 1, e);
    ReplacementSplit(s, i);
    Regroup(Hyphenate(s, i), Hyphenate(s, i + 1), Replacement(s, i), s[i], s[i + 1..e], Hyphenate(s, e));
  }

  /** At a run of capitals past index 0 the scanner emits the replacement and resumes at the run's end `e`. */
  lemma SubstituteAtRun(s: string, i: nat, e: nat)
    requires 0 < i < |s| && IsUpper(s[i]) && e == i + UpperRun(s, i)
    ensures Substitute(s, i) == Replacement(s, i) + Substitute(s, e)
  {
  }

  /**
   * The scanner agrees with the position rule from any index it can stand at:
   * the start, just after index 0, after a character that is not a capital,
   * or at the end of a run of capitals.
   */
  lemma {:induction false} SubstituteIsHyphenate(s: string, i: nat)
    requires i <= |s|
    requires i <= 1 || i == |s| || !IsUpper(s[i - 1]) || !IsUpper(s[i])
    ensures Substitute(s, i) == Hyphenate(s, i)
    decreases |s| - i
  {
    if i == |s| {
    } else if i > 0 && IsUpper(s[i]) {
      var e := i + UpperRun(s, i);
      assert e == |s| || !IsUpper(s[e]);
      SubstituteIsHyphenate(s, e);
      SubstituteAtRun(s, i, e);
      HyphenateRun(s, i, e);
      assert Substitute(s, i) == Hyphenate(s, i);
    } else {
      assert !HyphenBefore(s, i);
      SubstituteIsHyphenate(s, i + 1);
      assert Substitute(s, i) == [s[i]] + Substitute(s, i + 1);
      assert Hyphenate(s, i) == [s[i]] + Hyphenate(s, i + 1);
    }
  }

  /** `camel_case_to_slug` inserts a hyphen exactly where the position rule says, then lowercases. */
  lemma SlugIsPositionRule(name: string)
    ensures CamelCaseToSlug(name) == LowerAll(Hyphenate(name, 0))
  {
    SubstituteIsHyphenate(name, 0);
  }

  lemma {:induction false} HyphenateLength(s: string, i: nat)
    requires i <= |s|
    ensures |Hyphenate(s, i)| == |s| - i + HyphenCount(s, i)
    decreases |s| - i
  {
    if i < |s| {
      HyphenateLength(s, i + 1);
    }
  }

  /** The slug is as long as the name plus one per inserted hyphen. */
  lemma SlugLength(name: string)
    ensures |CamelCaseToSlug(name)| == |name| + HyphenCount(name, 0)
  {
    SlugIsPositionRule(name);
    HyphenateLength(name, 0);
  }

  /** A name without capitals after its first character only has its case changed. */
  lemma SlugWithoutInnerCapitals(name: string)
    requires forall i :: 1 <= i < |name| ==> !IsUpper(name[i])
    ensures CamelCaseToSlug(name) == LowerAll(name)
  {
    SlugIsPositionRule(name);
    HyphenateCopies(name, 0, |name|);
    assert name[0..|name|] == name;
  }

  /** A name that is already lowercase is its own slug. */
  lemma SlugFixesLowercase(name: string)
    requires NoUpper(name)
    ensures CamelCaseToSlug(name) == name
  {
    SlugWithoutInnerCapitals(name);
  }

  /** Slugifying twice is the same as slugifying once. */
  lemma SlugIdempotent(name: string)
    ensures CamelCaseToSlug(CamelCaseToSlug(name)) == CamelCaseToSlug(name)
  {
    SlugFixesLowercase(CamelCaseToSlug(name));
  }

  /** The position rule on "MyProjectName": hyphens before indices 2 and 9 only. */
  lemma HyphenateCamelCase()
    ensures Hyphenate("MyProjectName", 0) == "My-Project-Name"
  {
    var s := "MyProjectName";
    assert HyphenBefore(s, 9);
    assert Hyphenate(s, 9) == "-Name";
    assert HyphenBefore(s, 2);
    assert Hyphenate(s, 2) == "-Project-Name";
    assert Hyphenate(s, 0) == "My-Project-Name";
  }

  /** A camel-case name gets a hyphen before each inner capital. */
  lemma SlugExampleCamelCase()
    ensures CamelCaseToSlug("MyProjectName") == "my-project-name"
  {
    SlugIsPositionRule("MyProjectName");
    HyphenateCamelCase();
    LowerCamelCase();
  }

  lemma LowerCamelCase()
    ensures LowerAll("My-Project-Name") == "my-project-name"
  {
    var r := LowerAll("My-Project-Name");
    assert r[0] == 'm' && r[3] == 'p' && r[11] == 'n';
  }

  /** A leading run of capitals is split after its first character only. */
  lemma SlugExampleLeadingCapitals()
    ensures CamelCaseToSlug("ABc") == "a-bc"
  {
    var s := "ABc";
    SlugIsPositionRule(s);
    assert Hyphenate(s, 2) == "c";
    assert Hyphenate(s, 0) == "A-Bc";
    assert LowerAll("A-Bc") == "a-bc";
  }

  /** A lowercase name is unchanged. */
  lemma SlugExampleLowercase()
    ensures CamelCaseToSlug("abc") == "abc"
  {
    SlugFixesLowercase("abc");
  }
}

=== FILE: tickets.dfy ===
/**
 * The first half of `create_ticket`: finding the project a slug names and
 * composing the issue to create in it. The tracking service is not
 * modelled; its answers are inputs.
 */
module Tickets {
  import opened Wrappers
  import opened Sequences
  import opened Slugs
  import opened Mime

  /** A project as the tracking service returns it: its slug and the names its four issue enumerations offer. */
  datatype Project = Project(
    slug: string,
    priorities: seq<string>,
    statuses: seq<string>,
    issueTypes: seq<string>,
    severities: seq<string>)

  /** One entry of `api.projects.list()`, with the project `get_by_slug(p.slug)` returns for it. */
  datatype Listed = Listed(name: string, project: Project)

  // ------------------------------------------------------------ resolution

  predicate NameMatches(target: string, e: Listed) {
    CamelCaseToSlug(e.name) == target
  }

  /** `NameMatches` as a test on entries, for the search over the listing. */
  function MatchesTarget(target: string): Listed -> bool
  {
    e => NameMatches(target, e)
  }

  /** The `for p in projects` loop: every entry whose slugified name matches overwrites `found`; there is no `break`. */
  function Fallback(listing: seq<Listed>, target: string, found: Option<Project>): (r: Option<Project>)
    ensures (forall k :: 0 <= k < |listing| ==> !NameMatches(target, listing[k])) ==> r == found
    ensures r != found ==>
      exists k :: 0 <= k < |listing| && NameMatches(target, listing[k]) && r == Some(listing[k].project)
    decreases |listing|
  {
    if listing == [] then found
    else
      var e := listing[0];
      Fallback(listing[1..], target, if NameMatches(target, e) then Some(e.project) else found)
  }

  /**
   * Project resolution: `direct` is what the direct lookup by slug gave
   * (None where it raised), `listing` is the project list.
   */
  function ResolveProject(target: string, direct: Option<Project>, listing: seq<Listed>): (r: Option<Project>)
    ensures direct.Some? ==> r == direct
  {
    if direct.Some? then direct else Fallback(listing, target, None)
  }

  /** The project listed at index `k`, or `found` when there is no index. */
  function Pick(listing: seq<Listed>, k: Option<nat>, found: Option<Project>): Option<Project>
    requires k.Some? ==> k.value < |listing|
  {
    match k
    case None => found
    case Some(i) => Some(listing[i].project)
  }

  /** One entry in front: the last match moves up by one, or the new entry is picked when it is the only match. */
  lemma PickCons(e: Listed, rest: seq<Listed>, P: Listed -> bool, found: Option<Project>)
    ensures Pick([e] + rest, LastIndex([e] + rest, P), found)
      == Pick(rest, LastIndex(rest, P), if P(e) then Some(e.project) else found)
  {
    LastIndexCons(e, rest, P);
    match LastIndex(rest, P)
    case Some(i) =>
      assert ([e] + rest)[i + 1] == rest[i];
    case None =>
  }

  lemma {:induction false} FallbackTakesLastMatch(listing: seq<Listed>, target: string, found: Option<Project>)
    ensures Fallback(listing, target, found) == Pick(listing, LastIndex(listing, MatchesTarget(target)), found)
    decreases |listing|
  {
    if listing != [] {
      var e, rest := listing[0], listing[1..];
      var next := if NameMatches(target, e) then Some(e.project) else found;
      assert [e] + rest == listing;
      FallbackTakesLastMatch(rest, target, next);
      PickCons(e, rest, MatchesTarget(target), found);
    }
  }

  /**
   * Without a direct hit, resolution picks the LAST listed project whose
   * slugified name equals the target, and fails only when none does.
   */
  lemma ResolveTakesLastMatch(target: string, listing: seq<Listed>)
    ensures var r := ResolveProject(target, None, listing);
      && (r.None? <==> forall i :: 0 <= i < |listing| ==> CamelCaseToSlug(listing[i].name) != target)
      && (r.Some? ==> exists i :: (
            && 0 <= i < |listing| && r == Some(listing[i].project)
            && CamelCaseToSlug(listing[i].name) == target
            && forall j :: i < j < |listing| ==> CamelCaseToSlug(listing[j].name) != target))
  {
    var P := MatchesTarget(target);
    FallbackTakesLastMatch(listing, target, None);
    var k := LastIndex(listing, P);
    assert k.None? <==> forall i :: 0 <= i < |listing| ==> !P(listing[i]);
    if k.Some? {
      var i := k.value;
      assert forall j :: i < j < |listing| ==> !P(listing[j]);
    }
  }

  // ----------------------------------------------------------- composition

  /** The fixed header block put in front of the text body. */
  function DescriptionHeader(from: Option<string>, date: Option<string>): string
  {
    "From: " + Show(from) + "\nDate: " + Show(date) + "\n\n"
  }

  /** The issue description: the header block followed by the plain-text body. */
  function Description(post: Post): (d: string)
    ensures |d| >= |post.text| && d[|d| - |post.text|..] == post.text
    ensures |d| >= 6 && d[..6] == "From: "
  {
    DescriptionHeader(post.from, post.date) + post.text
  }

  /** Splits `s` at the first newline into the line before it and the text after it. */
  function SplitLine(s: string): Option<(string, string)>
  {
    match IndexOf(s, '\n')
    case None => None
    case Some(k) => Some((s[..k], s[k + 1..]))
  }

  lemma SplitLineOf(line: string, rest: string)
    requires '\n' !in line
    ensures SplitLine(line + "\n" + rest) == Some((line, rest))
  {
    IndexOfAfterPrefix(line, '\n', rest);
    var s := line + "\n" + rest;
    assert s[..|line|] == line;
    assert s[|line| + 1..] == rest;
  }

  /** Strips a literal prefix, or None when `s` does not start with it. */
  function StripPrefix(s: string, prefix: string): Option<string>
  {
    if |s| >= |prefix| && s[..|prefix|] == prefix then Some(s[|prefix|..]) else None
  }

  lemma StripPrefixOf(prefix: string, rest: string)
    ensures StripPrefix(prefix + rest, prefix) == Some(rest)
  {
    assert (prefix + rest)[..|prefix|] == prefix;
    assert (prefix + rest)[|prefix|..] == rest;
  }

  /** Reads the sender, date and text back out of a description; None when it is not in that shape. */
  function ParseDescription(d: string): Option<(string, string, string)>
  {
    var afterFrom :- StripPrefix(d, "From: ");
    var (from, afterFromLine) :- SplitLine(afterFrom);
    var afterDate :- StripPrefix(afterFromLine, "Date: ");
    var (date, afterDateLine) :- SplitLine(afterDate);
    var text :- StripPrefix(afterDateLine, "\n");
    Some((from, date, text))
  }

  /**
   * The description is the header block followed by the text body, and
   * nothing is lost: when neither header holds a newline, the sender, the
   * date and the whole body can be read back.
   */
  lemma DescriptionRoundTrip(post: Post)
    requires '\n' !in Show(post.from) && '\n' !in Show(post.date)
    ensures ParseDescription(Description(post)) == Some((Show(post.from), Show(post.date), post.text))
  {
    var from, date, text := Show(post.from), Show(post.date), post.text;
    var afterDateLine := "\n" + text;
    var afterDate := date + "\n" + afterDateLine;
    var afterFromLine := "Date: " + afterDate;
    var afterFrom := from + "\n" + afterFromLine;
    assert Description(post) == "From: " + afterFrom;
    StripPrefixOf("From: ", afterFrom);
    SplitLineOf(from, afterFromLine);
    StripPrefixOf("Date: ", afterDate);
    SplitLineOf(date, afterDateLine);
    StripPrefixOf("\n", text);
  }

  /** The issue `add_issue` is asked to create; the four enumerations are recorded by name. */
  datatype Issue = Issue(
    title: Option<string>,
    description: string,
    priority: string,
    status: string,
    issueType: string,
    severity: string,
    assignedTo: string)

  /** The enumeration whose `.get(name=...)` raised. */
  datatype Enumeration = PriorityEnum | StatusEnum | IssueTypeEnum | SeverityEnum

  /**
   * The arguments of `project.add_issue`, looked up left to right: the first
   * enumeration lacking its fixed name raises.
   */
  function ComposeIssue(post: Post, project: Project, assignee: string): (r: Result<Issue, Enumeration>)
    ensures r.Success? <==>
      "High" in project.priorities && "New" in project.statuses
      && "Bug" in project.issueTypes && "Minor" in project.severities
    ensures r == Failure(PriorityEnum) <==> "High" !in project.priorities
    ensures r == Failure(StatusEnum) <==> "High" in project.priorities && "New" !in project.statuses
    ensures r == Failure(IssueTypeEnum) <==>
      "High" in project.priorities && "New" in project.statuses && "Bug" !in project.issueTypes
    ensures r == Failure(SeverityEnum) <==>
      "High" in project.priorities && "New" in project.statuses
      && "Bug" in project.issueTypes && "Minor" !in project.severities
    ensures r.Success? ==>
      && r.value.title == post.subject
      && r.value.priority == "High" && r.value.status == "New"
      && r.value.issueType == "Bug" && r.value.severity == "Minor"
      && r.value.assignedTo == assignee
      && r.value.description == Description(post)
  {
    if "High" !in project.priorities then Failure(PriorityEnum)
    else if "New" !in project.statuses then Failure(StatusEnum)
    else if "Bug" !in project.issueTypes then Failure(IssueTypeEnum)
    else if "Minor" !in project.severities then Failure(SeverityEnum)
    else Success(Issue(post.subject, Description(post), "High", "New", "Bug", "Minor", assignee))
  }
}

=== FILE: wrappers.dfy ===
/** Failure-compatible Option and Result datatypes used throughout the model. */
module Wrappers {

  /** A value that may be absent: Python's `None` versus a present value. */
  datatype Option<+T> = None | Some(value: T) {

    predicate IsFailure() {
      None?
    }

    function PropagateFailure<U>(): Option<U>
      requires None?
    {
      None
    }

    function Extract(): T
      requires Some?
    {
      value
    }

    function GetOr(default: T): T {
      match this
      case Some(v) => v
      case None => default
    }
  }

  /** Either a value or the error that the source raises instead of returning one. */
  datatype Result<+R, +E> = Success(value: R) | Failure(error: E) {

    predicate IsFailure() {
      Failure?
    }

    function PropagateFailure<U>(): Result<U, E>
      requires Failure?
    {
      Failure(error)
    }

    function Extract(): R
      requires Success?
    {
      value
    }
  }
}
